=== FILE: README.md ===
# Submarine puzzles, days 1 to 3, in Dafny

This project models the core of three Advent of Code 2021 solutions and proves properties of the model.

- **Day 1, sonar sweep** (`day01/main.py`). This counts how often a depth reading exceeds the one before it. A second count does the same for the sums of a sliding window of readings, following Python's slice semantics exactly.
- **Day 2, dive** (`day02/__main__.py`). This covers:
  - parsing the text commands `forward n`, `down n` and `up n`;
  - the two position classes, plain and aimed, and their `+`;
  - a submarine that folds a list of commands into its position.
- **Day 3, binary diagnostic** (`day03/__main__.py`). This covers:
  - the gamma and epsilon rates, built column by column from the most and the least common bits;
  - the oxygen-generator and CO2-scrubber ratings, which filter the rows column by column;
  - reading each result as an unsigned binary number (`as_decimal`).

Files, one module each:

| file | module | models |
|---|---|---|
| `results.dfy` | `Results` | the `Option` and `Result` types the errors are carried in |
| `increases.dfy` | `Increases` | day 1 |
| `literals.dfy` | `Literals` | days 2 and 3: `str.strip`, the whitespace `int()` strips, and the literals `int(text, base)` reads |
| `commands.dfy` | `Commands` | day 2: commands, `str.split(" ")`, `int(amount)`, `parse_string` |
| `navigation.dfy` | `Navigation` | day 2: positions, `+`, `Submarine` |
| `bits.dfy` | `Bits` | day 3: bit strings, errors, `int(s, 2)` |
| `rates.dfy` | `Rates` | day 3: `Rate`, `GammaRate`, `EpsilonRate` |
| `ratings.dfy` | `Ratings` | day 3: `Rating`, `OxygenGeneratorRating`, `Co2ScrubberRating` |
| `diagnostic_example.dfy` | `DiagnosticExample` | day 3: the worked example of the tests |

Every exception the source raises on the modelled paths is an error value of a `Result`:

- day 2: `ValueError`s of parsing, and the `NotImplementedError` of adding a plain position to an aimed one;
- day 3: `ValueError` for a cell that is not a bit, `IndexError` for a row shorter than the first, `ValueError` from `int(rate, 2)`, and `TypeError` from `int(None, 2)` when a rating filter ends without a single row.

Python integers are unbounded, so `int` is used throughout without wrap-around. Reading a decimal number has a bound, though: by default CPython's `int()` raises `ValueError` on a base-10 literal of more than 4300 digits, underscores not counted (`sys.get_int_max_str_digits()`). The model rejects such literals too. Base 2, a power of two, is exempt.

Where the code and the puzzle's intended behaviour part, the code is modelled:

- The CO2 filter keeps the smaller side of every column, '0' on a tie. A column on which all remaining rows agree (including a lone remaining row) therefore empties the list. `as_decimal` then reads 0 instead of finding a rating. The intended rule keeps the last row.
- The sliding-window count keeps going after the last full window. It also compares the shortened windows at the end of the list.
- The oxygen filter fails when copies of one row survive every column (two copies of one row, for example), because `int(None, 2)` raises.

Lemmas state each of these behaviours.

## Model

| member | source | states |
|---|---|---|
| Increases.NaiveIncreases | day01/main.py:4-14 | the loop's count equals the number of indices whose next reading is strictly larger; the last index, which has no next reading, counts nothing |
| Increases.RisesBetweenBounds | day01/main.py:4-14 | a count over a range of indices is at most the range's length; it equals the length iff every index rises, and is zero iff none does |
| Increases.NaiveCountBounds | day01/main.py:4-14 | fewer than two readings count 0; otherwise the count is at most one less than the number of readings, reaches that maximum iff the readings strictly increase, and is 0 iff they never increase |
| Increases.Window | day01/main.py:16-17 | `_get_window_at(start)` holds the readings from `start` on, in order: `w` of them when the data reaches that far, the rest of the data otherwise, none from beyond the end |
| Increases.StopIndex | day01/main.py:18-19 | a slice's stop index, negative ones counted from the end, is clipped into the list |
| Increases.EmptyWindowsFrom | day01/main.py:29 | once `_get_window_at` yields an empty window, every later start yields one too, for any window size |
| Increases.NoRisesAfterEmpty | day01/main.py:29-33 | starts after the first empty window add nothing to the sliding count |
| Increases.WindowRisesBound | day01/main.py:29-33 | the sliding count over a range of starts is at most the range's length |
| Increases.SlidingWindowIncreases | day01/main.py:17-35 | with fewer readings than the window size the result is 0; otherwise it is the number of starts from 1 whose window is non-empty and sums to more than the previous window, shortened end windows included; it never exceeds one less than the number of readings |
| Increases.WindowOfOneIsNaive | day01/main.py:4-35 | with window size 1, the sliding count over any prefix equals the naive count |
| Increases.WindowOfOneRisesAt | day01/main.py:16-32 | with window size 1, a window rises exactly where the naive count sees a rise |
| Increases.SlidingWindowOfOneIsNaive | day01/main.py:4-35 | with window size 1 the sliding count is the naive count |
| Increases.FullWindowRise | day01/main.py:29-32 | two neighbouring full windows: the later sum is larger iff the reading it gains exceeds the reading it loses |
| Increases.TailWindowNeverRises | day01/main.py:29-32 | with non-negative readings, a shortened window at the end never sums to more than the window before it |
| Increases.SlidingIsShifted | day01/main.py:17-35 | for non-negative readings and window size w >= 1, the sliding count is the number of readings exceeded by the reading w places later |
| Increases.NegativeTailWindowRises | day01/main.py:17-35 | with negative readings a shortened end window can rise: [-1, 0, 0] with window size 3 counts one increase, while the shifted comparison counts none |
| Increases.SmallExamples | day01/test_main.py:8-13 | the naive counts of the small test lists: 0, 0, 1, 2, 0, 1 |
| Increases.SecondIncreaseExample | day01/test_main.py:14 | the naive count of [199, 200, 197, 198, 199] is 3 |
| Increases.SonarExample | day01/test_main.py:15 | the naive count of the puzzle example is 7 |
| Increases.RealDataExample | day01/test_main.py:16 | the naive count of the first lines of real data is 7 |
| Commands.MakeCommand | day02/__main__.py:137-156 | `Forward(n)`, `Down(n)` and `Up(n)` build a command of their own class that gives n back as its amount; only `Forward` has a horizontal delta and only `Down` and `Up` a depth delta |
| Commands.FindIn | day02/__main__.py:39-46 | a move is found iff some registered move carries the keyword; it is a registered move with that keyword; otherwise the error names the keyword |
| Commands.FindMove | day02/__main__.py:39-46 | `_find_move_cls` returns a move whose keyword is the one asked for, or "Move '<keyword>' not supported" |
| Commands.FindMoveOfKeyword | day02/__main__.py:13-15 | with `Forward`, `Down` and `Up` registered, a keyword is supported iff it is "forward", "down" or "up", and every move is found by its own keyword |
| Literals.IntSpaceIsStrSpaceButSeparators | day02/__main__.py:27-29 | `int()` strips exactly the characters `str.strip()` strips except the four separators U+001C to U+001F |
| Literals.SeparatorStripExample | day02/__main__.py:27-29 | `str.strip()` removes U+001C before "5" and `int()`'s stripping does not |
| Literals.LeadingSpaces | day02/__main__.py:27 | the leading-whitespace count of `strip` covers only whitespace and stops before a non-space or at the end |
| Literals.TrailingSpaces | day02/__main__.py:27 | the trailing-whitespace count covers only whitespace and stops after a non-space or at the start |
| Literals.Strip | day02/__main__.py:27 | `val.strip()` (and, with the other whitespace set, the stripping inside `int()`) is a slice of the input that neither starts nor ends in whitespace, and only whitespace lies outside it |
| Literals.StripOfPadded | day02/__main__.py:27 | stripping text that has no whitespace at its ends, surrounded by any whitespace, gives exactly that text |
| Literals.StripOfTrimmed | day02/__main__.py:27 | text with no whitespace at either end is left as it is |
| Literals.StripKeepsFirst | day02/__main__.py:27 | text that starts with a non-space keeps that first character |
| Literals.StripIsIdempotent | day02/__main__.py:27 | stripping twice is stripping once |
| Literals.IntText | day02/__main__.py:29 | `int(text, base)` succeeds iff the text, stripped of the whitespace `int()` strips (not U+001C to U+001F), is a sign, a base prefix (`0b`/`0B`, then at most one underscore, in base 2 only) and digits of the base with single underscores between them, at most 4300 digits in base 10; a negative result needs a leading minus |
| Literals.LiteralValue | day02/__main__.py:29 | a stripped text reads as a number iff it is such a literal within the digit limit, and it reads negative only after a minus |
| Literals.SplitIsUnique | day02/__main__.py:29 | a literal splits into sign, prefix and digit groups in exactly one way |
| Literals.IntTextOfDigits | day02/__main__.py:29 | a sign and a run of digits, with any whitespace `int()` strips around them, read as the signed value of the digits; in base 10 a run of more than 4300 digits raises instead |
| Literals.IntTextIgnoresUnderscore | day02/__main__.py:29 | an underscore between two runs of digits changes nothing: the text reads as the digits joined, and past 4300 digits in base 10 both texts raise |
| Literals.NotLiteralOfBadStart | day02/__main__.py:29 | a stripped text that starts with neither a sign nor a digit of the base is no literal |
| Literals.NotLiteralOfBadEnd | day02/__main__.py:29 | a stripped text that does not end with a digit of the base is no literal |
| Literals.DigitLimitExample | day02/__main__.py:29 | 4301 ones raise in base 10 but read in base 2, and 4300 ones read in base 10 |
| Literals.OnesRead | day02/__main__.py:29 | a run of n ones reads in base 2 always and in base 10 iff n is at most 4300 |
| Literals.IntTextRejectsSeparatorExample | day02/__main__.py:27-29 | "\x1c5" is "5" after `str.strip()` but `int("\x1c5")` raises |
| Literals.IntTextIgnoresBinaryPrefix | day03/__main__.py:23 | in base 2, a `0b` or `0B` prefix (with or without one underscore after it) changes nothing |
| Commands.Split | day02/__main__.py:34 | `split(" ")` returns one more field than there are spaces, and no field contains a space |
| Commands.JoinOfSplit | day02/__main__.py:34 | joining the fields of `split` with the separator restores the text |
| Commands.SplitOfJoin | day02/__main__.py:34 | splitting the join of fields that contain no separator gives those fields back |
| Commands.ParseInt | day02/__main__.py:29 | `int(amount)` succeeds iff the text, stripped of the whitespace `int()` strips, is a decimal literal (an optional sign, then digits with single underscores between them) of at most 4300 digits; otherwise it fails, naming the text |
| Commands.ShowInt | day02/__main__.py:29 | the decimal text of an integer is non-empty, starts with '-' iff the integer is negative, and is otherwise all decimal digits |
| Commands.DigitsValueOfShowNat | day02/__main__.py:29 | reading the digits of a natural number gives it back |
| Commands.ParseIntOfShowInt | day02/__main__.py:29 | `int` reads the decimal text of n back as n for every integer n of at most 4300 digits, with any whitespace `int()` strips around the text; for a longer n it fails, naming the text |
| Commands.ParseCommand | day02/__main__.py:25-37 | `parse_string` fails with "needs two values" iff the line after `str.strip()` does not hold exactly one space; on success, the move's keyword is the first field, the command's amount is `int` of the second (which strips only `int()`'s whitespace), and the command is built as `Forward`, `Down` or `Up` builds it (only `Forward` moves horizontally, only `Down` and `Up` in depth) |
| Commands.ParseCommandOfFormat | day02/__main__.py:25-46 | the keyword, one space, any whitespace `int()` strips other than the space, and the amount, with any `str.strip()` whitespace around the line, parses back to the command `Forward(amount)`, `Down(amount)` or `Up(amount)` for amounts of at most 4300 digits; a longer amount fails, naming the amount field |
| Commands.ParseCommandOfCanonical | day02/__main__.py:25-46 | a line written as keyword, one space and the amount parses back to its command for amounts of at most 4300 digits, and fails on the amount otherwise |
| Commands.ParseCommandErrors | day02/__main__.py:25-46 | the checks run in order: the line fails with "not supported" iff it has two fields and the first is unknown, and that error names the first field; it fails on the amount iff it has two fields, the move is known and the second is no integer |
| Commands.OneField | day02/__main__.py:31-37 | a trimmed line without a space lacks the second value |
| Commands.ParseDigitLine | day02/__main__.py:25-29 | a move keyword, one space, whitespace `int()` strips other than the space, and one digit parse to that move with that amount |
| Commands.ParseForwardExample | day02/test_main.py:81-86 | "forward 5" parses to `Forward(5)` |
| Commands.ParseUpExample | day02/test_main.py:81-86 | "up 0" parses to `Up(0)` |
| Commands.ParseDownExample | day02/test_main.py:81-86 | "down 5" parses to `Down(5)` |
| Commands.ParseTabbedAmountExample | day02/__main__.py:25-29 | "forward \t5" parses to `Forward(5)`: `int` strips the tab that `split(" ")` leaves in the second field |
| Commands.ParseSeparatorAmountExample | day02/__main__.py:25-29 | "forward \x1c5" fails on its amount: `split(" ")` keeps U+001C in the second field and `int` does not strip it |
| Commands.ParseUnknownMoveExample | day02/test_main.py:88-96 | "f 5" fails with "Move 'f' not supported" |
| Commands.ParseEmptyExample | day02/test_main.py:88-96 | "" fails with "needs two values" |
| Commands.ParseLoneMoveExample | day02/test_main.py:88-96 | "down" fails with "needs two values" |
| Navigation.Product | day02/__main__.py:79-80 | `product` is zero iff the horizontal distance or the depth is zero, and is not negative when both are not negative |
| Navigation.Move | day02/__main__.py:82-131 | adding a command keeps the class of the position: plain stays plain, aimed stays aimed |
| Navigation.MovePlain | day02/__main__.py:82-89 | on a plain position, `Forward(n)` adds n to the horizontal distance, `Down(n)` adds n to the depth and `Up(n)` subtracts n from it |
| Navigation.MoveWithAim | day02/__main__.py:117-131 | on an aimed position, `Down(n)` and `Up(n)` only change the aim (by n and by -n), and `Forward(n)` advances by n and sinks by aim times n |
| Navigation.ZeroAmountMovesNothing | day02/__main__.py:82-131 | a command of amount 0 leaves either kind of position unchanged |
| Navigation.Plus | day02/__main__.py:82-131 | adding two positions raises `NotImplementedError` iff an aimed position gets a plain one; otherwise the left operand's class is kept |
| Navigation.PlainPlusLaws | day02/__main__.py:82-89 | plain addition has the origin as identity on both sides and is commutative and associative, and adding a command equals adding its delta as a position |
| Navigation.AimPlusDoesNotCommute | day02/__main__.py:117-131 | aimed addition keeps the left depth, so it does not commute |
| Navigation.Travel | day02/__main__.py:170-172 | folding commands into a position keeps its class |
| Navigation.TravelAppend | day02/__main__.py:170-172 | moving by a concatenation is moving by the first list, then by the second |
| Navigation.TravelPair | day02/__main__.py:170-172 | moving by two commands is two single moves in order |
| Navigation.PlainTravelIsSum | day02/__main__.py:82-89 | a plain position ends up displaced by the summed horizontal and depth deltas of the commands |
| Navigation.PlainCourseProduct | day02/__main__.py:79-89 | from the origin, a plain submarine's `product` is the summed depth delta times the summed horizontal delta of its commands |
| Navigation.PlainTravelSwap | day02/__main__.py:82-89 | swapping two neighbouring commands anywhere in the list does not change a plain position's result |
| Navigation.AimTravelOrderMatters | day02/__main__.py:117-131 | with aim, down-then-forward sinks and forward-then-down does not |
| Navigation.AimTracksPlain | day02/__main__.py:82-131 | for commands built by the constructors, an aimed position's horizontal distance and aim follow a plain position's horizontal distance and depth |
| Navigation.ParsedCourseTracksPlain | day02/__main__.py:25-131 | for commands parsed from text lines, an aimed position's horizontal distance and aim follow a plain position's horizontal distance and depth |
| Navigation.SteerThenAdvance | day02/__main__.py:82-131 | from the surface, when every `Down` and `Up` precedes every `Forward`, the aimed depth equals the plain product |
| Navigation.SteeringOnly | day02/__main__.py:117-131 | `Down` and `Up` commands only move the aim, by their summed depth deltas |
| Navigation.AdvancingOnly | day02/__main__.py:117-131 | `Forward` commands advance by their summed amount and sink by the current aim times that sum |
| Navigation.DownThenUpCancel | day02/__main__.py:82-156 | going down n and then up n returns either kind of position to where it was |
| Navigation.Create | day02/__main__.py:174-176 | a new submarine sits at the origin (product 0) with no aim, and its position has the class of the strategy it was created with |
| Navigation.MoveSubmarine | day02/__main__.py:167-168 | `move` adds one command to the position |
| Navigation.MoveMultiple | day02/__main__.py:170-172 | the loop's final position is the left-to-right fold of the commands; an empty list changes nothing, and the position keeps its class |
| Navigation.PlainExample | day02/test_main.py:128-147 | the example course takes a plain submarine to (15, 10), product 150 |
| Navigation.AimExample | day02/test_main.py:128-147 | the example course takes an aimed submarine to (15, 60) with aim 10, product 900 |
| Navigation.AimScenario | day02/test_main.py:37-71 | the step-by-step aimed positions of the scenario tests |
| Navigation.PositionExamples | day02/test_main.py:15-107 | the position, step and single-move test examples |
| Bits.ParseBinary | day03/__main__.py:23 | `int(s, 2)` succeeds iff s, stripped of the whitespace `int()` strips, is a binary literal (a sign, an optional `0b` prefix, bits with single underscores between them); a failure names s; a negative value needs a leading minus; a non-empty bit string reads as its unsigned value |
| Bits.ParseBinaryOfBitFirst | day03/__main__.py:23 | a text that starts with a bit never reads negative, whatever follows |
| Bits.ParseBinaryOfJoined | day03/__main__.py:23 | an underscore between two bit strings reads as their concatenation |
| Bits.ParseBinaryOfPrefixed | day03/__main__.py:23 | a `0b` or `0B` prefix before a bit string reads as nothing |
| Bits.ParseBinaryOfPadded | day03/__main__.py:23 | whitespace `int()` strips around a bit string reads as nothing |
| Bits.ParseBinaryUnderscoreExample | day03/__main__.py:23 | "1_0" reads 2 |
| Bits.ParseBinaryPrefixExample | day03/__main__.py:23 | "0b1" reads 1 |
| Bits.ParseBinaryPaddedExample | day03/__main__.py:23 | "1 " reads 1 |
| Bits.ParseBinarySeparatorExample | day03/__main__.py:23 | "1\x1f" is rejected: `int` does not strip U+001F |
| Bits.ValueOfToBinary | day03/__main__.py:23 | a number below 2^width, written in width bits and read back, is itself |
| Bits.ToBinaryOfValue | day03/__main__.py:23 | a bit string read as a number and written back in its own width is itself |
| Bits.ValuePlusComplement | day03/__main__.py:43-66 | a bit string and its complement, read as numbers, add up to 2^width - 1 |
| Rates.ColumnError | day03/__main__.py:26-33 | scanning one column raises iff some row has no bit there |
| Rates.ColumnErrorIsFirstBadCell | day03/__main__.py:26-33 | the error raised is the one of the first offending row; every earlier row has a bit in the column |
| Rates.GridError | day03/__main__.py:25-33 | scanning the columns raises iff some column has a row without a bit, and then raises that column's error |
| Rates.CountAppend | day03/__main__.py:27-31 | counting a symbol in a column is additive over a split of the rows |
| Rates.CountsCover | day03/__main__.py:28-31 | in a column of bits the ones and the zeros together count every row once |
| Rates.Frequencies | day03/__main__.py:25-33 | the frequency table exists iff every row has a bit in every column, and then it has one entry per column |
| Rates.ScanColumn | day03/__main__.py:26-33 | the inner loop counts the ones and zeros of a column, or raises at the first offending row |
| Rates.GetFrequencies | day03/__main__.py:25-33 | the nested loops produce exactly the frequency table, or the error of the first offending column |
| Rates.FrequenciesOfBadColumn | day03/__main__.py:25-33 | the first offending column decides the error raised |
| Rates.FrequenciesOfCounts | day03/__main__.py:25-33 | on a grid of bits the table holds each column's counts |
| Rates.RateBit | day03/__main__.py:44-66 | the column bit is a bit: gamma's is '1' iff ones outnumber zeros, epsilon's is '0' iff they do, and on a tie gamma gives '0' and epsilon '1' |
| Rates.Rate | day03/__main__.py:7-17 | an empty input gives ""; otherwise the rate exists iff every row has a bit in every column of the first row's width; the rate has that width, and its bit p is '1' iff (for gamma) or unless (for epsilon) more than half the rows have '1' at p |
| Rates.RateDecimal | day03/__main__.py:19-23 | `as_decimal` is 0 for an empty input and fails on the empty rate of zero-width rows; otherwise it succeeds iff the grid is all bits, and its width-bit rendering is the rate |
| Rates.EpsilonIsComplementOfGamma | day03/__main__.py:43-66 | epsilon succeeds iff gamma does, fails with the same error, and is otherwise gamma's bitwise complement, ties included |
| Rates.GammaPlusEpsilon | day03/__main__.py:19-66 | when gamma reads as a number so does epsilon, and the two add up to 2^width - 1 |
| Ratings.WithBit | day03/__main__.py:90-94 | a side holds one entry per row with that bit, and only such rows, taken from the input |
| Ratings.Partition | day03/__main__.py:86-96 | `_get_frequencies_at` succeeds iff every candidate has a bit in the column, raises the first offending row's error otherwise, and the two sides together hold every candidate |
| Ratings.GetFrequenciesAt | day03/__main__.py:86-96 | the loop builds exactly the two sides, or raises at the first offending candidate |
| Ratings.KeptBit | day03/__main__.py:98-100 | oxygen keeps a side at least as large as the other and CO2 one at most as large; on a tie oxygen keeps '1' and CO2 keeps '0' |
| Ratings.PoliciesKeepOppositeSides | day03/__main__.py:112-119 | in every column the two ratings keep opposite sides |
| Ratings.FilterStep | day03/__main__.py:82 | one round keeps exactly the candidates with the bit the rating keeps for the column's counts, or raises the column's error |
| Ratings.FilterStepSize | day03/__main__.py:86-100 | oxygen keeps at least half the candidates and CO2 at most half; CO2 empties a non-empty list iff every candidate has the same bit in the column |
| Ratings.FilterFrom | day03/__main__.py:80-84 | when the loop returns a rating, it is one of the candidates and is the only one left |
| Ratings.FilterFromColumns | day03/__main__.py:80-84 | the loop examines at most the columns left; it returns a rating iff some examined column left exactly one candidate, and gives up only after the last column |
| Ratings.FilterFromStopsAtFirstSingleton | day03/__main__.py:80-84 | the candidates left are those of filtering through every column examined, and no earlier column left exactly one |
| Ratings.OxygenKeepsACandidate | day03/__main__.py:80-100 | the oxygen filter never loses every candidate |
| Ratings.FilterFromOfValidRows | day03/__main__.py:80-100 | the filter raises only on a cell that is not a bit |
| Ratings.MatchingExtend | day03/__main__.py:86-94 | keeping the rows with bit b in the next column refines a shared prefix by b |
| Ratings.NarrowIsMatching | day03/__main__.py:80-100 | after any number of rounds, the candidates are exactly the input rows, in order, that start with one bit string of that many columns |
| Ratings.FullPrefixMatchesAtMostOne | day03/__main__.py:80-100 | among distinct rows of one width, at most one row matches a full-width prefix |
| Ratings.RatingOf | day03/__main__.py:73-84 | on a grid of bits the rating computation succeeds, and a rating it finds is one of the rows and the only candidate left |
| Ratings.RatingDecimal | day03/__main__.py:102-106 | `as_decimal` is 0 for an empty input or an emptied candidate list; it fails with the `TypeError` whenever candidates remain but no rating was found; it passes the filter's errors through; otherwise it is `int(rating, 2)`, which succeeds iff the rating, stripped of `int()`'s whitespace, is a binary literal and reads a bit-string rating as its value |
| Ratings.RatingDecimalIsNotNegative | day03/__main__.py:73-106 | `as_decimal` of a rating is never negative |
| Ratings.RatingStartsWithKeptBit | day03/__main__.py:80-100 | a rating found is non-empty and starts with the bit its policy keeps for the counts of column 0 |
| Ratings.OxygenSettlesLoneRow | day03/__main__.py:73-106 | a lone row that starts with a bit is its own oxygen rating after one column, and `as_decimal` is `int(row, 2)` |
| Ratings.OxygenReadsLiteralRowsExample | day03/__main__.py:73-106 | the lone rows "1_0", "0b1" and "1 " rate 2, 1 and 1, as `int(row, 2)` reads them |
| Ratings.OxygenRejectsSeparatorRowExample | day03/__main__.py:73-106 | the lone row "1\x1f" settles the oxygen rating, but `as_decimal` raises on it |
| Ratings.OxygenRatingExists | day03/__main__.py:73-106 | on distinct, non-empty bit rows of one width, the oxygen filter always finds a rating, and it is one of the rows |
| Ratings.NarrowKeepsMembers | day03/__main__.py:86-100 | every candidate left after some rounds is one of the starting candidates |
| Ratings.OxygenAndCo2RatingsDiffer | day03/__main__.py:98-119 | when both filters find a rating, the two ratings differ in their first bit |
| Ratings.FirstBitOfSurvivor | day03/__main__.py:98-119 | a candidate that survives a round starts with the bit its rating keeps in column 0 |
| Ratings.FilterFromOfEmpty | day03/__main__.py:80-100 | an empty candidate list stays empty through every remaining column and yields no rating |
| Ratings.Co2StepOfUniformColumn | day03/__main__.py:86-119 | on a column where every candidate has the same bit, the CO2 round keeps the empty side |
| Ratings.Co2EmptiesOnUnanimousColumn | day03/__main__.py:80-119 | on a column where the candidates agree, the CO2 filter loses every candidate and ends with no rating after the remaining columns |
| Ratings.Co2DiscardsLoneRow | day03/__main__.py:73-119 | a single bit row gets no CO2 rating, and `as_decimal` reads 0 |
| Ratings.Co2EmptiesDistinctRows | day03/__main__.py:73-119 | the distinct rows "00" and "01" also get no CO2 rating, and `as_decimal` reads 0 |
| Ratings.OxygenRoundKeepsCopies | day03/__main__.py:86-114 | one oxygen round over copies of a bit row keeps every copy |
| Ratings.OxygenKeepsCopies | day03/__main__.py:80-114 | the oxygen filter never separates copies of one row: it examines every column left and ends without a rating, all copies kept |
| Ratings.NarrowKeepsCopies | day03/__main__.py:86-114 | any number of oxygen rounds over copies of a bit row keeps every copy |
| Ratings.OxygenFailsOnDuplicateRows | day03/__main__.py:73-114 | two copies of a row leave the oxygen filter without a rating, and `as_decimal` fails |
| Ratings.OxygenFailsOnCopies | day03/__main__.py:73-114 | two or more copies of a non-empty bit row leave the oxygen filter without a rating after every column, and `as_decimal` fails |
| Ratings.Co2DiscardsDuplicateRows | day03/__main__.py:102-119 | two copies of a row are both discarded by CO2 in column 0, and `as_decimal` reads 0 |
| DiagnosticExample.ReportIsValid | day03/test_main.py:33-46 | every row of the example report is five bits |
| DiagnosticExample.ReportCounts | day03/test_main.py:33-46 | the example's columns hold 7, 5, 8, 7 and 5 ones out of 12 |
| DiagnosticExample.GammaOfReport | day03/test_main.py:32-49 | gamma of the example is "10110" |
| DiagnosticExample.GammaDecimalOfReport | day03/test_main.py:32-49 | gamma of the example reads 22 |
| DiagnosticExample.EpsilonOfReport | day03/test_main.py:85-102 | epsilon of the example is "01001" |
| DiagnosticExample.PowerConsumptionOfReport | day03/test_main.py:85-102 | epsilon of the example reads 9, and the power consumption is 198 |

## Left out

- The `__main__` blocks of all three files are left out: they read `data.txt`, print, and call the parser through `Position.parse_string`, which does not exist (parsing lives on `Command`). File I/O and printing are outside the model.
- The `__str__` and `__repr__` methods are left out; they only format text for display.
- `__eq__` of `Command` and `Position` is not modelled; the model uses structural equality. The source's equality compares only the class, the depth and the horizontal distance, so it ignores the aim: the test's expected `PositionWithAim(15, 60)` compares equal to the reached position, whose aim is 10.
- Commands as values of the abstract base `Command` (built with both deltas) are not modelled; only `Forward`, `Down` and `Up` commands are built. `Navigation.Move` still takes any delta pair and dispatches on the class.
- `Submarine.move` accepts any operand `+` accepts. The model moves it by commands only; adding positions is `Navigation.Plus`.
- The `isinstance` checks that reject operands other than positions and commands (`NotImplementedError`) are modelled only for an aimed position receiving a plain one. Every other operand type is excluded by the Dafny types.
- Literals.IntText: reads ASCII digits only. Python's `int()` also reads the other Unicode decimal digits (Arabic-Indic digits, for example); those are not modelled. Only the two bases the solvers use, 10 and 2, are modelled.
- Commands.ParseInt: as `Literals.IntText`, non-ASCII decimal digits are not modelled.
- Commands.ShowInt: the decimal text of any integer, as a reference printer for the round trips. CPython's `str(n)` raises past 4300 digits, but the modelled code never prints an amount.
- Literals.MaxStrDigits: the digit limit is fixed at CPython's default of 4300. A limit changed through `sys.set_int_max_str_digits`, `PYTHONINTMAXSTRDIGITS` or `-X int_max_str_digits` is not modelled, nor are interpreters older than 3.11, 3.10.7 and 3.9.14, which have no limit.
- Bits.ParseBinary: as `Literals.IntText`, non-ASCII decimal digits are not modelled.
- Rates and Ratings take a `seq<string>`; the source's `values or []` (treating `None` as empty) is not modelled.
- The tests' rate parameter tables with single-bit and two-bit inputs are not restated one by one; `Rates.Rate` states the bit rule they exercise.
- The oxygen rating 23 and CO2 rating 10 of the puzzle's worked example are not derived; the tests do not check them.
- `day01/test_main.py` imports `find_increases_count`, a name `day01/main.py` does not define. The examples are stated against the naive count, which they describe.

=== FILE: bits.dfy ===
/** Bit strings of the binary diagnostic (day 3): the symbols, the errors the engine
    raises, and the unsigned base-2 reading of a rate or rating (`as_decimal`). */
module Bits {
  import opened Results
  import opened Literals

  /** Everything the diagnostic engine can raise. */
  datatype DiagnosticError =
    | CannotParse(symbol: char)    // ValueError "Cannot parse '<symbol>'"
    | IndexOutOfRange              // IndexError: a row is shorter than the column read
    | InvalidLiteral(text: string) // ValueError from int(text, 2)
    | NoRating                     // TypeError from int(None, 2): the filter found no rating

  predicate IsBit(c: char) {
    c == '0' || c == '1'
  }

  predicate IsBinary(s: string) {
    forall i :: 0 <= i < |s| ==> IsBit(s[i])
  }

  function Pow2(n: nat): (r: nat)
    ensures r >= 1
  {
    if n == 0 then 1 else 2 * Pow2(n - 1)
  }

  function BitValue(c: char): nat {
    if c == '1' then 1 else 0
  }

  /** The unsigned value of a most-significant-bit-first bit string. */
  function Value(s: string): (r: nat)
    requires IsBinary(s)
    ensures r < Pow2(|s|)
  {
    if |s| == 0 then 0 else 2 * Value(s[..|s| - 1]) + BitValue(s[|s| - 1])
  }

  /** The low `width` bits of `n`, most significant first: the inverse of `Value`. */
  function ToBinary(n: nat, width: nat): (r: string)
    ensures |r| == width && IsBinary(r)
  {
    if width == 0 then "" else ToBinary(n / 2, width - 1) + [if n % 2 == 1 then '1' else '0']
  }

  /** Bitwise complement: every '1' becomes '0' and every other symbol becomes '1'. */
  function Complement(s: string): (r: string)
    ensures |r| == |s| && IsBinary(r)
    ensures forall i :: 0 <= i < |s| ==> (r[i] == '1' <==> s[i] != '1')
  {
    seq(|s|, i requires 0 <= i < |s| => if s[i] == '1' then '0' else '1')
  }

  /** Python's `int(s, 2)`: the binary literals of `Literals.IntText`, which admit
      whitespace around the digits, a sign, a `0b` prefix and single underscores between
      digits; anything else raises. A plain bit string reads as its unsigned value. */
  function ParseBinary(s: string): (r: Result<int, DiagnosticError>)
    ensures r.Ok? <==> IsIntLiteral(Strip(IntSpace, s), 2)
    ensures r.Err? ==> r.error == InvalidLiteral(s)
    ensures r.Ok? && r.value < 0 ==> Strip(IntSpace, s)[0] == '-'
    ensures |s| > 0 && IsBinary(s) ==> r == Ok(Value(s))
  {
    BitsAreLiteral(s);
    match IntText(s, 2)
    case Some(v) => Ok(v)
    case None => Err(InvalidLiteral(s))
  }

  /** A non-empty bit string is a binary literal whose value is `Value`. */
  lemma BitsAreLiteral(s: string)
    ensures |s| > 0 && IsBinary(s) ==> IntText(s, 2) == Some(Value(s))
  {
    if |s| > 0 && IsBinary(s) {
      ValueIsDigitsValue(s);
      DigitIsNotSpace(s[0], 2);
      DigitIsNotSpace(s[|s| - 1], 2);
      IntTextOfTrimmed(s, 2);
      LiteralValueOfPlain(s, 2);
    }
  }

  /** A text that starts with a bit never reads negative, whatever follows. */
  lemma ParseBinaryOfBitFirst(s: string)
    requires |s| > 0 && IsBit(s[0])
    ensures ParseBinary(s).Ok? ==> ParseBinary(s).value >= 0
  {
    StripKeepsFirst(IntSpace, s);
  }

  /** `Value` is the base-2 digit value of `Literals`. */
  lemma {:induction false} ValueIsDigitsValue(s: string)
    requires IsBinary(s)
    ensures AllDigits(s, 2) && Value(s) == DigitsValue(s, 2)
  {
    if |s| > 0 {
      ValueIsDigitsValue(s[..|s| - 1]);
    }
  }

  lemma {:induction false} ValueOfToBinary(n: nat, width: nat)
    requires n < Pow2(width)
    ensures Value(ToBinary(n, width)) == n
  {
    if width > 0 {
      var s := ToBinary(n, width);
      assert s[..|s| - 1] == ToBinary(n / 2, width - 1);
      ValueOfToBinary(n / 2, width - 1);
    }
  }

  lemma {:induction false} ToBinaryOfValue(s: string)
    requires IsBinary(s)
    ensures ToBinary(Value(s), |s|) == s
  {
    if |s| > 0 {
      var init := s[..|s| - 1];
      ToBinaryOfValue(init);
      var v := Value(s);
      assert v / 2 == Value(init) && v % 2 == BitValue(s[|s| - 1]);
      assert s == init + [s[|s| - 1]];
    }
  }

  /** A bit string and its complement add up to the all-ones number of the same width. */
  lemma {:induction false} ValuePlusComplement(s: string)
    requires IsBinary(s)
    ensures Value(s) + Value(Complement(s)) == Pow2(|s|) - 1
  {
    if |s| > 0 {
      var init := s[..|s| - 1];
      assert Complement(s)[..|s| - 1] == Complement(init);
      ValuePlusComplement(init);
    }
  }

  /** `int(s, 2)` reads an underscore between bits as nothing. */
  lemma ParseBinaryOfJoined(a: string, b: string, s: string)
    requires |a| > 0 && |b| > 0 && IsBinary(a) && IsBinary(b) && s == a + "_" + b
    ensures IsBinary(a + b) && ParseBinary(s) == Ok(Value(a + b))
  {
    assert IsBinary(a + b);
    assert AllDigits(a, 2) && AllDigits(b, 2) by {
      ValueIsDigitsValue(a);
      ValueIsDigitsValue(b);
    }
    IntTextIgnoresUnderscore(a, b, 2);
    ValueIsDigitsValue(a + b);
  }

  /** `int(s, 2)` reads a `0b` prefix as nothing. */
  lemma ParseBinaryOfPrefixed(p: string, bits: string, s: string)
    requires IsBasePrefix(p, 2) && |p| > 0 && |bits| > 0 && IsBinary(bits) && s == p + bits
    ensures ParseBinary(s) == Ok(Value(bits))
  {
    ValueIsDigitsValue(bits);
    IntTextIgnoresBinaryPrefix(p, bits);
  }

  /** `int(s, 2)` strips the whitespace it knows around the bits. */
  lemma ParseBinaryOfPadded(before: string, bits: string, after: string, s: string)
    requires AllSpace(IntSpace, before) && |bits| > 0 && IsBinary(bits) && AllSpace(IntSpace, after)
    requires s == before + bits + after
    ensures ParseBinary(s) == Ok(Value(bits))
  {
    assert Trimmed(IntSpace, bits) by {
      ValueIsDigitsValue(bits);
      DigitIsNotSpace(bits[0], 2);
      DigitIsNotSpace(bits[|bits| - 1], 2);
    }
    StripOfPadded(IntSpace, before, bits, after);
    BitsAreLiteral(bits);
    IntTextOfTrimmed(bits, 2);
  }

  /** Texts `int(s, 2)` accepts that are not bit strings: "1_0" reads 2, "0b1" reads 1
      and "1 " reads 1. */
  lemma ParseBinaryUnderscoreExample()
    ensures ParseBinary("1_0") == Ok(2)
  {
    ParseBinaryOfJoined("1", "0", "1_0");
    assert Value("1" + "0") == 2 by {
      assert ("1" + "0")[..1] == "1";
    }
  }

  lemma ParseBinaryPrefixExample()
    ensures ParseBinary("0b1") == Ok(1)
  {
    var p, bits := "0b", "1";
    assert IsBasePrefix(p, 2) && p + bits == "0b1" by {
      assert p[0] == '0' && p[1] == 'b';
    }
    assert IsBinary(bits) && Value(bits) == 1;
    ParseBinaryOfPrefixed(p, bits, "0b1");
  }

  lemma ParseBinaryPaddedExample()
    ensures ParseBinary("1 ") == Ok(1)
  {
    var before, bits, after := "", "1", " ";
    assert IsBinary(bits) && Value(bits) == 1;
    assert AllSpace(IntSpace, before) && AllSpace(IntSpace, after) && before + bits + after == "1 ";
    ParseBinaryOfPadded(before, bits, after, "1 ");
  }

  /** `int(s, 2)` does not strip the separator U+001F, so "1\x1f" is no number. */
  lemma ParseBinarySeparatorExample()
    ensures ParseBinary("1\U{1F}") == Err(InvalidLiteral("1\U{1F}"))
  {
    StripOfTrimmed(IntSpace, "1\U{1F}");
    NotLiteralOfBadEnd("1\U{1F}", 2);
  }
}

=== FILE: commands.dfy ===
/** The command parser of the submarine (day02/__main__.py, `Command`, `Forward`, `Down`,
    `Up`): a line "<move> <amount>" becomes a command carrying a horizontal and a depth
    delta. The moves form a closed registry of three. */
module Commands {
  import opened Results
  import opened Literals

  /** The registered move classes, in the order they are declared. */
  datatype Move = Forward | Down | Up

  /** The keyword a move is looked up by (its `__string__`). */
  function Keyword(m: Move): string {
    match m
    case Forward => "forward"
    case Down => "down"
    case Up => "up"
  }

  /** A command: the class it was built as and the delta it carries. */
  datatype Command = Command(move: Move, horizontal: int, depth: int)

  /** The constructors `Forward(n)`, `Down(n)` and `Up(n)`. */
  function MakeCommand(m: Move, amount: int): (c: Command)
    ensures c.move == m && Amount(c) == amount
    ensures c.horizontal != 0 ==> m == Forward
    ensures c.depth != 0 ==> m != Forward
  {
    match m
    case Forward => Command(Forward, amount, 0)
    case Down => Command(Down, 0, amount)
    case Up => Command(Up, 0, -amount)
  }

  /** The amount a command was built from. */
  function Amount(c: Command): int {
    match c.move
    case Forward => c.horizontal
    case Down => c.depth
    case Up => -c.depth
  }

  /** A command built by `MakeCommand` from its own amount: `Forward` has no depth delta,
      `Down` and `Up` no horizontal one. */
  predicate WellBuilt(c: Command) {
    c == MakeCommand(c.move, Amount(c))
  }

  /** The errors of `parse_string`, all `ValueError`s in the source. */
  datatype ParseError =
    | NeedsTwoValues              // "String needs two values, separated by space"
    | MoveNotSupported(keyword: string) // "Move '<keyword>' not supported"
    | InvalidAmount(text: string) // what `int(text)` raises

  /** The registry `available_moves`, filled as the subclasses are declared. */
  const Registry: seq<Move> := [Forward, Down, Up]

  /** The first move of `moves` whose keyword is `keyword`. */
  function FindIn(moves: seq<Move>, keyword: string): (r: Result<Move, ParseError>)
    ensures r.Ok? <==> exists i :: 0 <= i < |moves| && Keyword(moves[i]) == keyword
    ensures r.Ok? ==> r.value in moves && Keyword(r.value) == keyword
    ensures r.Err? ==> r.error == MoveNotSupported(keyword)
  {
    if |moves| == 0 then Err(MoveNotSupported(keyword))
    else if Keyword(moves[0]) == keyword then Ok(moves[0])
    else
      var r := FindIn(moves[1..], keyword);
      assert forall i :: 1 <= i < |moves| ==> moves[i] == moves[1..][i - 1];
      r
  }

  /** `_find_move_cls`: look the keyword up in the registry. */
  function FindMove(keyword: string): (r: Result<Move, ParseError>)
    ensures r.Ok? ==> Keyword(r.value) == keyword
    ensures r.Err? ==> r.error == MoveNotSupported(keyword)
  {
    FindIn(Registry, keyword)
  }

  /** Exactly the three keywords are supported, and each finds its own move. */
  lemma FindMoveOfKeyword(keyword: string)
    ensures FindMove(keyword).Ok? <==> keyword in {"forward", "down", "up"}
    ensures forall m :: FindMove(Keyword(m)) == Ok(m)
  {
    assert Keyword(Registry[0]) == "forward" && Keyword(Registry[1]) == "down" && Keyword(Registry[2]) == "up";
    forall m ensures FindMove(Keyword(m)) == Ok(m) {
      assert Keyword(m) == Keyword(Registry[if m == Forward then 0 else if m == Down then 1 else 2]);
    }
  }

  // ------------------------------------------------------------- str.split(" ")

  /** How often `c` occurs in `s`. */
  function Occurrences(s: string, c: char): nat {
    if |s| == 0 then 0 else (if s[0] == c then 1 else 0) + Occurrences(s[1..], c)
  }

  /** `str.split(sep)` with an explicit separator: the fields between consecutive
      separators, empty ones included; there is always at least one field. */
  function Split(s: string, sep: char): (r: seq<string>)
    ensures |r| == 1 + Occurrences(s, sep)
    ensures forall k :: 0 <= k < |r| ==> sep !in r[k]
  {
    if |s| == 0 then [""]
    else
      var rest := Split(s[1..], sep);
      if s[0] == sep then [""] + rest
      else
        assert forall k :: 1 <= k < |rest| ==> ([[s[0]] + rest[0]] + rest[1..])[k] == rest[k];
        [[s[0]] + rest[0]] + rest[1..]
  }

  /** `sep.join(fields)`. */
  function Join(fields: seq<string>, sep: char): string
    requires |fields| >= 1
  {
    if |fields| == 1 then fields[0] else fields[0] + [sep] + Join(fields[1..], sep)
  }

  /** Joining the fields back with the separator restores the text. */
  lemma {:induction false} JoinOfSplit(s: string, sep: char)
    ensures Join(Split(s, sep), sep) == s
  {
    if |s| > 0 {
      var rest := Split(s[1..], sep);
      JoinOfSplit(s[1..], sep);
      if s[0] == sep {
        assert ([""] + rest)[1..] == rest;
      } else {
        var fs := [[s[0]] + rest[0]] + rest[1..];
        if |rest| > 1 {
          assert fs[1..] == rest[1..];
          assert Join(rest, sep) == rest[0] + [sep] + Join(rest[1..], sep);
        }
      }
    }
  }

  /** Splitting a field without separators off the front of a text. */
  lemma {:induction false} SplitOfPrefix(field: string, tail: string, sep: char)
    requires sep !in field
    ensures var rest := Split(tail, sep);
            Split(field + tail, sep) == [field + rest[0]] + rest[1..]
    decreases |field|
  {
    if |field| > 0 {
      assert (field + tail)[1..] == field[1..] + tail;
      assert (field + tail)[0] == field[0];
      SplitOfPrefix(field[1..], tail, sep);
      var rest, inner := Split(tail, sep), Split(field[1..] + tail, sep);
      assert field[0] != sep;
      assert inner[0] == field[1..] + rest[0] && inner[1..] == rest[1..];
      assert [field[0]] + inner[0] == field + rest[0];
    } else {
      var rest := Split(tail, sep);
      assert field + tail == tail;
      assert field + rest[0] == rest[0];
      assert [rest[0]] + rest[1..] == rest;
    }
  }

  /** Fields without separators are split back out of their join. */
  lemma {:induction false} SplitOfJoin(fields: seq<string>, sep: char)
    requires |fields| >= 1 && forall k :: 0 <= k < |fields| ==> sep !in fields[k]
    ensures Split(Join(fields, sep), sep) == fields
  {
    if |fields| == 1 {
      SplitOfPrefix(fields[0], "", sep);
      assert fields[0] + "" == fields[0];
    } else {
      var tail := [sep] + Join(fields[1..], sep);
      SplitOfJoin(fields[1..], sep);
      assert Split(tail, sep) == [""] + fields[1..] by {
        assert tail[1..] == Join(fields[1..], sep);
      }
      SplitOfPrefix(fields[0], tail, sep);
      assert fields[0] + [sep] + Join(fields[1..], sep) == fields[0] + tail;
      assert fields[0] + "" == fields[0];
      assert [fields[0]] + fields[1..] == fields;
    }
  }

  // ----------------------------------------------------------------- int(text)

  /** `int(text)`: a decimal literal of at most `MaxStrDigits` digits with whitespace
      around it, as `Literals.IntText` reads it; anything else raises. */
  function ParseInt(s: string): (r: Result<int, ParseError>)
    ensures r.Ok? <==> IsIntLiteral(Strip(IntSpace, s), 10) && WithinDigitLimit(Strip(IntSpace, s), 10)
    ensures r.Err? ==> r.error == InvalidAmount(s)
  {
    match IntText(s, 10)
    case Some(v) => Ok(v)
    case None => Err(InvalidAmount(s))
  }

  /** The decimal digits of `n`, without leading zeros. */
  function ShowNat(n: nat): (r: string)
    ensures |r| > 0 && AllDigits(r, 10)
    decreases n
  {
    if n < 10 then [('0' as int + n) as char] else ShowNat(n / 10) + [('0' as int + n % 10) as char]
  }

  /** The decimal text of an integer, as `str(n)` prints it: a minus sign for a negative
      number, then digits. */
  function ShowInt(n: int): (r: string)
    ensures |r| > 0 && (r[0] == '-' <==> n < 0)
    ensures forall k :: 0 <= k < |r| && (k > 0 || n >= 0) ==> IsDigit(r[k], 10)
  {
    if n < 0 then "-" + ShowNat(-n) else ShowNat(n)
  }

  /** How many decimal digits `n` has, its sign not counted. */
  function DecimalDigits(n: int): nat {
    |ShowNat(if n < 0 then -n else n)|
  }

  lemma {:induction false} DigitsValueOfShowNat(n: nat)
    ensures DigitsValue(ShowNat(n), 10) == n
    decreases n
  {
    if n >= 10 {
      var s := ShowNat(n);
      assert s[..|s| - 1] == ShowNat(n / 10);
      DigitsValueOfShowNat(n / 10);
    }
  }

  /** Reading back a printed integer gives it back, whitespace around it or not, as long
      as it has at most `MaxStrDigits` digits; a longer one is rejected. */
  lemma ParseIntOfShowInt(before: string, n: int, after: string)
    requires AllSpace(IntSpace, before) && AllSpace(IntSpace, after)
    ensures ParseInt(before + ShowInt(n) + after) ==
              if DecimalDigits(n) <= MaxStrDigits then Ok(n) else Err(InvalidAmount(before + ShowInt(n) + after))
  {
    var m: nat := if n < 0 then -n else n;
    var sign := if n < 0 then "-" else "";
    DigitsValueOfShowNat(m);
    assert before + ShowInt(n) + after == before + sign + ShowNat(m) + after;
    IntTextOfDigits(before + ShowInt(n) + after, before, sign, ShowNat(m), after, 10);
  }

  // ---------------------------------------------------------------- parse_string

  /** `Command.parse_string`: strip, split on single spaces into exactly two fields,
      look the move up, read the amount. The checks happen in that order. */
  function ParseCommand(line: string): (r: Result<Command, ParseError>)
    ensures r == Err(NeedsTwoValues) <==> Occurrences(Strip(StrSpace, line), ' ') != 1
    ensures r.Ok? ==> Keyword(r.value.move) == Split(Strip(StrSpace, line), ' ')[0]
                      && ParseInt(Split(Strip(StrSpace, line), ' ')[1]) == Ok(Amount(r.value))
    ensures r.Ok? ==> WellBuilt(r.value)
  {
    var fields := Split(Strip(StrSpace, line), ' ');
    if |fields| != 2 then Err(NeedsTwoValues)
    else
      match FindMove(fields[0])
      case Err(e) => Err(e)
      case Ok(m) =>
        match ParseInt(fields[1])
        case Err(e) => Err(e)
        case Ok(n) => Ok(MakeCommand(m, n))
  }

  /** The canonical text of a command: keyword, one space, amount. */
  function Format(m: Move, amount: int): string {
    Keyword(m) + " " + ShowInt(amount)
  }

  lemma {:induction false} OccurrencesOfAbsent(s: string, c: char)
    requires c !in s
    ensures Occurrences(s, c) == 0
  {
    if |s| > 0 {
      assert s[0] != c;
      OccurrencesOfAbsent(s[1..], c);
    }
  }

  /** Two fields without spaces, joined by one space, that start and end in
      non-whitespace: `strip` keeps the line and `split` gives the two fields back. */
  lemma TwoFields(first: string, second: string, line: string)
    requires |first| > 0 && |second| > 0 && !IsSpace(StrSpace, first[0]) && !IsSpace(StrSpace, second[|second| - 1])
    requires ' ' !in first && ' ' !in second
    requires line == first + " " + second
    ensures Strip(StrSpace, line) == line && Split(line, ' ') == [first, second]
  {
    assert line[0] == first[0] && line[|line| - 1] == second[|second| - 1];
    StripOfTrimmed(StrSpace, line);
    assert Join([first, second], ' ') == line by {
      assert [first, second][1..] == [second];
    }
    SplitOfJoin([first, second], ' ');
  }

  /** A trimmed line without spaces lacks the second value. */
  lemma OneField(line: string)
    requires Trimmed(StrSpace, line) && ' ' !in line
    ensures ParseCommand(line) == Err(NeedsTwoValues)
  {
    StripOfTrimmed(StrSpace, line);
    OccurrencesOfAbsent(line, ' ');
  }

  /** A formatted command parses back to the command, with any whitespace around the
      line, which `str.strip()` removes, and before the amount any whitespace `int()`
      strips except the space itself, which `split` would take as a separator. An amount
      of more than `MaxStrDigits` digits is rejected. */
  lemma ParseCommandOfFormat(before: string, m: Move, gap: string, amount: int, after: string)
    requires AllSpace(StrSpace, before) && AllSpace(IntSpace, gap) && AllSpace(StrSpace, after) && ' ' !in gap
    ensures ParseCommand(before + Keyword(m) + " " + gap + ShowInt(amount) + after) ==
              if DecimalDigits(amount) <= MaxStrDigits then Ok(MakeCommand(m, amount))
              else Err(InvalidAmount(gap + ShowInt(amount)))
  {
    var kw, field := Keyword(m), gap + ShowInt(amount);
    AmountField(gap, amount);
    KeywordShape(m);
    var text := kw + " " + field;
    TwoFields(kw, field, text);
    StripOfPadded(StrSpace, before, text, after);
    Regroup(before, kw, " ", gap, ShowInt(amount), after);
    FindMoveOfKeyword(kw);
  }

  /** A keyword is a non-empty word without whitespace; kept apart so that the three
      keyword literals stay out of `ParseCommandOfFormat`. */
  lemma KeywordShape(m: Move)
    ensures |Keyword(m)| > 0 && !IsSpace(StrSpace, Keyword(m)[0]) && ' ' !in Keyword(m)
  {
  }

  /** Concatenation regrouped, kept apart so that the solver does not reassociate the
      whole line inside `ParseCommandOfFormat`. */
  lemma Regroup(a: string, b: string, c: string, d: string, e: string, f: string)
    ensures a + b + c + d + e + f == a + (b + c + (d + e)) + f
  {
  }

  /** The amount field of a formatted command: no space in it, no whitespace at its end,
      and `int` reads the amount back within the digit limit. */
  lemma AmountField(gap: string, amount: int)
    requires AllSpace(IntSpace, gap) && ' ' !in gap
    ensures var field := gap + ShowInt(amount);
            && |field| > 0 && !IsSpace(StrSpace, field[|field| - 1]) && ' ' !in field
            && ParseInt(field) == if DecimalDigits(amount) <= MaxStrDigits then Ok(amount) else Err(InvalidAmount(field))
  {
    var num := ShowInt(amount);
    var field := gap + num;
    DigitIsNotSpace(num[|num| - 1], 10);
    assert field[|field| - 1] == num[|num| - 1];
    assert ' ' !in field by {
      forall k | 0 <= k < |field| ensures field[k] != ' ' {
        if k < |gap| {
          assert field[k] == gap[k];
        } else {
          assert field[k] == num[k - |gap|];
          assert IsDigit(num[k - |gap|], 10) || k - |gap| == 0;
        }
      }
    }
    ParseIntOfShowInt(gap, amount, "");
    assert gap + num + "" == field;
  }

  /** The fields are checked in order: a bad count hides everything, an unknown move hides
      a bad amount. */
  lemma ParseCommandErrors(line: string)
    ensures var fields, r := Split(Strip(StrSpace, line), ' '), ParseCommand(line);
            r.Err? && r.error.MoveNotSupported? <==> |fields| == 2 && FindMove(fields[0]).Err?
    ensures var fields, r := Split(Strip(StrSpace, line), ' '), ParseCommand(line);
            r.Err? && r.error.InvalidAmount? <==>
              && |fields| == 2 && FindMove(fields[0]).Ok?
              && !(IsIntLiteral(Strip(IntSpace, fields[1]), 10) && WithinDigitLimit(Strip(IntSpace, fields[1]), 10))
    ensures var fields, r := Split(Strip(StrSpace, line), ' '), ParseCommand(line);
            r.Err? && r.error.MoveNotSupported? ==> r.error.keyword == fields[0]
  {
  }

  /** A canonical line parses back to its command, unless the amount has more than
      `MaxStrDigits` digits. */
  lemma ParseCommandOfCanonical(m: Move, amount: int)
    ensures ParseCommand(Format(m, amount)) ==
              if DecimalDigits(amount) <= MaxStrDigits then Ok(MakeCommand(m, amount)) else Err(InvalidAmount(ShowInt(amount)))
  {
    assert "" + Keyword(m) + " " + "" + ShowInt(amount) + "" == Format(m, amount);
    assert "" + ShowInt(amount) == ShowInt(amount);
    ParseCommandOfFormat("", m, "", amount, "");
  }

  /** A move, whitespace before the amount, and a one-digit amount. */
  lemma ParseDigitLine(m: Move, gap: string, digit: nat, line: string)
    requires AllSpace(IntSpace, gap) && ' ' !in gap
    requires digit < 10 && line == Keyword(m) + " " + gap + [('0' as int + digit) as char]
    ensures ParseCommand(line) == Ok(MakeCommand(m, digit))
  {
    assert ShowInt(digit) == [('0' as int + digit) as char];
    assert "" + Keyword(m) + " " + gap + ShowInt(digit) + "" == line;
    ParseCommandOfFormat("", m, gap, digit, "");
  }

  /** The accepted lines of the test suite: "forward 5", "up 0" and "down 5". */
  lemma ParseForwardExample()
    ensures ParseCommand("forward 5") == Ok(Command(Forward, 5, 0))
  {
    ParseDigitLine(Forward, "", 5, "forward 5");
  }

  lemma ParseUpExample()
    ensures ParseCommand("up 0") == Ok(Command(Up, 0, 0))
  {
    ParseDigitLine(Up, "", 0, "up 0");
  }

  lemma ParseDownExample()
    ensures ParseCommand("down 5") == Ok(Command(Down, 0, 5))
  {
    ParseDigitLine(Down, "", 5, "down 5");
  }

  /** A tab after the separating space is stripped by `int`, not split on. */
  lemma ParseTabbedAmountExample()
    ensures ParseCommand("forward \t5") == Ok(Command(Forward, 5, 0))
  {
    ParseDigitLine(Forward, "\t", 5, "forward \t5");
  }

  /** The separator U+001C after the space is neither split on nor stripped by `int`, so
      the amount is rejected. */
  lemma ParseSeparatorAmountExample()
    ensures ParseCommand("forward \U{1C}5") == Err(InvalidAmount("\U{1C}5"))
  {
    TwoFields("forward", "\U{1C}5", "forward \U{1C}5");
    FindMoveOfKeyword("forward");
    IntTextRejectsSeparatorExample();
  }

  /** An unknown move is reported by name. */
  lemma ParseUnknownMoveExample()
    ensures ParseCommand("f 5") == Err(MoveNotSupported("f"))
  {
    TwoFields("f", "5", "f 5");
    FindMoveOfKeyword("f");
  }

  /** An empty line and a lone move lack the second value. */
  lemma ParseEmptyExample()
    ensures ParseCommand("") == Err(NeedsTwoValues)
  {
    OneField("");
  }

  lemma ParseLoneMoveExample()
    ensures ParseCommand("down") == Err(NeedsTwoValues)
  {
    OneField("down");
  }
}

=== FILE: diagnostic_example.dfy ===
/** The worked example of the binary diagnostic (day03/test_main.py): twelve rows of
    five bits whose gamma rate is "10110" = 22 and epsilon rate "01001" = 9. */
module DiagnosticExample {
  import opened Results
  import opened Bits
  import opened Rates

  const ReportHead: seq<string> := ["00100", "11110", "10110", "10111", "10101", "01111"]
  const ReportTail: seq<string> := ["00111", "11100", "10000", "11001", "00010", "01010"]
  const Report: seq<string> := ReportHead + ReportTail

  /** Every row of the report is five bits wide. */
  lemma ReportIsValid()
    ensures ValidGrid(Report, 5)
  {
    forall pos | 0 <= pos < 5 ensures ValidColumn(Report, pos) {
      forall i | 0 <= i < |Report| ensures pos < |Report[i]| && IsBit(Report[i][pos]) {
        assert IsBinary(Report[i]) && |Report[i]| == 5;
      }
    }
  }

  /** The number of ones in each column: 7, 5, 8, 7, 5 out of 12. */
  lemma ReportCounts()
    ensures Count(Report, 0, '1') == 7 && Count(Report, 1, '1') == 5 && Count(Report, 2, '1') == 8
    ensures Count(Report, 3, '1') == 7 && Count(Report, 4, '1') == 5
  {
    OnesInHead();
    OnesInTail();
    forall p | 0 <= p < 5 ensures Count(Report, p, '1') == Count(ReportHead, p, '1') + Count(ReportTail, p, '1') {
      CountAppend(ReportHead, ReportTail, p, '1');
    }
  }

  lemma OnesInHead()
    ensures Count(ReportHead, 0, '1') == 4 && Count(ReportHead, 1, '1') == 2 && Count(ReportHead, 2, '1') == 6
    ensures Count(ReportHead, 3, '1') == 4 && Count(ReportHead, 4, '1') == 3
  {
    OnesInHeadLeft();
    OnesInHeadRight();
  }

  lemma OnesInHeadLeft()
    ensures Count(ReportHead, 0, '1') == 4 && Count(ReportHead, 1, '1') == 2 && Count(ReportHead, 2, '1') == 6
  {
  }

  lemma OnesInHeadRight()
    ensures Count(ReportHead, 3, '1') == 4 && Count(ReportHead, 4, '1') == 3
  {
  }

  lemma OnesInTail()
    ensures Count(ReportTail, 0, '1') == 3 && Count(ReportTail, 1, '1') == 3 && Count(ReportTail, 2, '1') == 2
    ensures Count(ReportTail, 3, '1') == 3 && Count(ReportTail, 4, '1') == 2
  {
    OnesInTailLeft();
    OnesInTailRight();
  }

  lemma OnesInTailLeft()
    ensures Count(ReportTail, 0, '1') == 3 && Count(ReportTail, 1, '1') == 3 && Count(ReportTail, 2, '1') == 2
  {
  }

  lemma OnesInTailRight()
    ensures Count(ReportTail, 3, '1') == 3 && Count(ReportTail, 4, '1') == 2
  {
  }

  /** The most common bits give gamma "10110". */
  lemma GammaOfReport()
    ensures Rate(Gamma, Report) == Ok("10110")
  {
    ReportIsValid();
    ReportCounts();
    var g := Rate(Gamma, Report).value;
    assert |g| == 5;
    assert g[0] == '1' && g[1] == '0' && g[2] == '1' && g[3] == '1' && g[4] == '0';
    assert g == "10110";
  }

  /** A five-bit number is determined by its bits. */
  lemma FiveBitsDetermineValue(n: nat, m: nat)
    requires n < Pow2(5) && m < Pow2(5) && ToBinary(n, 5) == ToBinary(m, 5)
    ensures n == m
  {
    ValueOfToBinary(n, 5);
    ValueOfToBinary(m, 5);
  }

  /** Gamma reads 22. */
  lemma GammaDecimalOfReport()
    ensures RateDecimal(Gamma, Report) == Ok(22)
  {
    ReportIsValid();
    GammaOfReport();
    assert ToBinary(22, 5) == "10110";
    FiveBitsDetermineValue(RateDecimal(Gamma, Report).value, 22);
  }

  /** Epsilon is the complement "01001" of gamma. */
  lemma EpsilonOfReport()
    ensures Rate(Epsilon, Report) == Ok("01001")
  {
    GammaOfReport();
    EpsilonIsComplementOfGamma(Report);
    assert Complement("10110") == "01001";
  }

  /** Epsilon reads 9, so the power consumption is 22 * 9 = 198. */
  lemma PowerConsumptionOfReport()
    ensures RateDecimal(Epsilon, Report) == Ok(9)
    ensures RateDecimal(Gamma, Report).value * RateDecimal(Epsilon, Report).value == 198
  {
    GammaDecimalOfReport();
    assert |Report[0]| == 5 && Pow2(5) == 32;
    GammaPlusEpsilon(Report);
  }
}

=== FILE: increases.dfy ===
/** Counting how often the sea floor gets deeper (day01/main.py): between adjacent
    readings, and between sums over a sliding window of readings. */
module Increases {

  // ---------------------------------------------------------------- naive count

  /** Reading `i + 1` exists and is strictly deeper than reading `i`. */
  predicate RiseAt(data: seq<int>, i: int) {
    0 <= i && i + 1 < |data| && data[i + 1] > data[i]
  }

  /** The number of indices `i` in `[lo, hi)` at which the next reading is deeper. */
  function RisesBetween(data: seq<int>, lo: int, hi: int): nat
    decreases hi - lo
  {
    if hi <= lo then 0 else RisesBetween(data, lo, hi - 1) + (if RiseAt(data, hi - 1) then 1 else 0)
  }

  /** All deeper-than-before indices of the readings. */
  function Rises(data: seq<int>): nat {
    RisesBetween(data, 0, |data|)
  }

  /** `find_naive_increases_count`: for each index, compare the next reading if there is
      one (the last index finds none and counts nothing). */
  method NaiveIncreases(data: seq<int>) returns (count: nat)
    ensures count == Rises(data)
  {
    count := 0;
    var idx := 0;
    while idx < |data|
      invariant 0 <= idx <= |data|
      invariant count == RisesBetween(data, 0, idx)
    {
      var next := idx + 1;
      if next < |data| && data[next] > data[idx] {
        count := count + 1;
      }
      idx := idx + 1;
    }
  }

  /** A count over `[lo, hi)` is at most its length, reaches it exactly when every index
      rises, and is zero exactly when none does. */
  lemma {:induction false} RisesBetweenBounds(data: seq<int>, lo: int, hi: int)
    requires lo <= hi
    ensures RisesBetween(data, lo, hi) <= hi - lo
    ensures RisesBetween(data, lo, hi) == hi - lo <==> forall i :: lo <= i < hi ==> RiseAt(data, i)
    ensures RisesBetween(data, lo, hi) == 0 <==> forall i :: lo <= i < hi ==> !RiseAt(data, i)
    decreases hi - lo
  {
    if hi > lo {
      RisesBetweenBounds(data, lo, hi - 1);
    }
  }

  /** Strictly deeper at every step. */
  predicate StrictlyIncreasing(data: seq<int>) {
    forall i :: 0 <= i < |data| - 1 ==> data[i] < data[i + 1]
  }

  /** Never deeper at any step. */
  predicate NeverIncreasing(data: seq<int>) {
    forall i :: 0 <= i < |data| - 1 ==> data[i + 1] <= data[i]
  }

  /** The naive count is zero for fewer than two readings and at most one less than the
      number of readings; it is that maximum exactly for strictly increasing readings and
      zero exactly for readings that never increase. */
  lemma NaiveCountBounds(data: seq<int>)
    ensures |data| <= 1 ==> Rises(data) == 0
    ensures |data| >= 1 ==> Rises(data) <= |data| - 1
    ensures |data| >= 1 ==> (Rises(data) == |data| - 1 <==> StrictlyIncreasing(data))
    ensures Rises(data) == 0 <==> NeverIncreasing(data)
  {
    if |data| >= 1 {
      var n := |data|;
      RisesBetweenBounds(data, 0, n - 1);
      assert !RiseAt(data, n - 1);
      assert Rises(data) == RisesBetween(data, 0, n - 1);
      assert (forall i :: 0 <= i < n - 1 ==> RiseAt(data, i)) <==> StrictlyIncreasing(data) by {
        if StrictlyIncreasing(data) {
          forall i | 0 <= i < n - 1 ensures RiseAt(data, i) {
            assert data[i] < data[i + 1];
          }
        }
        if forall i :: 0 <= i < n - 1 ==> RiseAt(data, i) {
          forall i | 0 <= i < n - 1 ensures data[i] < data[i + 1] {
            assert RiseAt(data, i);
          }
        }
      }
      assert (forall i :: 0 <= i < n - 1 ==> !RiseAt(data, i)) <==> NeverIncreasing(data) by {
        if NeverIncreasing(data) {
          forall i | 0 <= i < n - 1 ensures !RiseAt(data, i) {
            assert data[i + 1] <= data[i];
          }
        }
        if forall i :: 0 <= i < n - 1 ==> !RiseAt(data, i) {
          forall i | 0 <= i < n - 1 ensures data[i + 1] <= data[i] {
            assert !RiseAt(data, i);
          }
        }
      }
    } else {
      assert Rises(data) == 0;
    }
  }

  // ------------------------------------------------------------ sliding windows

  /** Where a slice with stop index `stop` ends in a list of `n` items: a negative stop
      counts from the end, and the result is clipped to `[0, n]`. */
  function StopIndex(n: nat, stop: int): (e: nat)
    ensures e <= n
  {
    if stop < 0 then (if stop + n < 0 then 0 else stop + n)
    else if stop > n then n else stop
  }

  /** `data[start:stop]` for a non-negative start. */
  function Slice(data: seq<int>, start: nat, stop: int): seq<int> {
    var e := StopIndex(|data|, stop);
    if start < e then data[start..e] else []
  }

  /** `_get_window_at(start)`: the `w` readings from `start`, fewer near the end. */
  function Window(data: seq<int>, w: int, start: nat): (r: seq<int>)
    ensures forall k :: 0 <= k < |r| ==> start + k < |data| && r[k] == data[start + k]
    ensures w >= 0 && start + w <= |data| ==> |r| == w
    ensures w >= 0 && start + w > |data| ==> |r| == if start < |data| then |data| - start else 0
  {
    Slice(data, start, start + w)
  }

  /** `sum`. */
  function Sum(s: seq<int>): int {
    if |s| == 0 then 0 else s[0] + Sum(s[1..])
  }

  /** The window at `s >= 1` is non-empty and its sum exceeds the previous window's. */
  predicate WindowRiseAt(data: seq<int>, w: int, s: nat)
    requires s >= 1
  {
    |Window(data, w, s)| > 0 && Sum(Window(data, w, s)) > Sum(Window(data, w, s - 1))
  }

  /** The number of window starts `s` in `[lo, hi)`, `lo >= 1`, whose window rises. */
  function WindowRisesBetween(data: seq<int>, w: int, lo: nat, hi: int): nat
    requires lo >= 1
    decreases hi - lo
  {
    if hi <= lo then 0
    else WindowRisesBetween(data, w, lo, hi - 1) + (if WindowRiseAt(data, w, hi - 1) then 1 else 0)
  }

  /** Once a window is empty, every later one is: with a non-negative size the start has
      passed the end (or the size is zero), with a negative size the stop index only
      grows by one per step. */
  lemma EmptyWindowStaysEmpty(data: seq<int>, w: int, s: nat)
    requires |Window(data, w, s)| == 0
    ensures |Window(data, w, s + 1)| == 0
  {
  }

  lemma {:induction false} EmptyWindowsFrom(data: seq<int>, w: int, s: nat, t: nat)
    requires |Window(data, w, s)| == 0 && s <= t
    ensures |Window(data, w, t)| == 0
    decreases t - s
  {
    if s < t {
      EmptyWindowStaysEmpty(data, w, s);
      EmptyWindowsFrom(data, w, s + 1, t);
    }
  }

  /** Past the first empty window nothing more is counted. */
  lemma {:induction false} NoRisesAfterEmpty(data: seq<int>, w: int, start: nat, hi: int)
    requires 1 <= start <= hi && |Window(data, w, start)| == 0
    ensures WindowRisesBetween(data, w, 1, hi) == WindowRisesBetween(data, w, 1, start)
    decreases hi - start
  {
    if hi > start {
      EmptyWindowsFrom(data, w, start, hi - 1);
      NoRisesAfterEmpty(data, w, start, hi - 1);
    }
  }

  lemma {:induction false} WindowRisesBound(data: seq<int>, w: int, lo: nat, hi: int)
    requires 1 <= lo <= hi
    ensures WindowRisesBetween(data, w, lo, hi) <= hi - lo
    decreases hi - lo
  {
    if hi > lo {
      WindowRisesBound(data, w, lo, hi - 1);
    }
  }

  /** `find_sliding_window_increases_count`: zero when there are fewer readings than the
      window size; otherwise compare each window with the one before, from start 1 until
      the window comes out empty. Shortened windows at the end are compared too. */
  method SlidingWindowIncreases(data: seq<int>, w: int) returns (count: nat)
    ensures |data| < w ==> count == 0
    ensures |data| >= w ==> count == WindowRisesBetween(data, w, 1, |data|)
    ensures count <= if |data| == 0 then 0 else |data| - 1
  {
    if |data| < w {
      return 0;
    }
    var start := 0;
    var current := Sum(Window(data, w, start));
    start := start + 1;
    count := 0;
    while |Window(data, w, start)| > 0
      invariant 1 <= start <= |data| + 1
      invariant current == Sum(Window(data, w, start - 1))
      invariant count == WindowRisesBetween(data, w, 1, start)
      decreases |data| - start
    {
      var next := Sum(Window(data, w, start));
      if next > current {
        count := count + 1;
      }
      start := start + 1;
      current := next;
    }
    if start <= |data| {
      NoRisesAfterEmpty(data, w, start, |data|);
      WindowRisesBound(data, w, 1, |data|);
    } else {
      assert start == |data| + 1;
      assert WindowRisesBetween(data, w, 1, start) == WindowRisesBetween(data, w, 1, |data|) + 0;
      if |data| >= 1 {
        WindowRisesBound(data, w, 1, |data|);
      }
    }
  }

  /** With a window of one reading the sliding count is the naive count. */
  lemma {:induction false} WindowOfOneIsNaive(data: seq<int>, hi: int)
    requires 1 <= hi <= |data|
    ensures WindowRisesBetween(data, 1, 1, hi) == RisesBetween(data, 0, hi - 1)
    decreases hi
  {
    if hi > 1 {
      WindowOfOneIsNaive(data, hi - 1);
      WindowOfOneRisesAt(data, hi - 1);
    }
  }

  /** A window of one reading rises exactly where the reading before it is smaller. */
  lemma WindowOfOneRisesAt(data: seq<int>, s: nat)
    requires 1 <= s < |data|
    ensures WindowRiseAt(data, 1, s) <==> RiseAt(data, s - 1)
  {
    assert Window(data, 1, s) == [data[s]] && Window(data, 1, s - 1) == [data[s - 1]];
    assert [data[s]][1..] == [] && [data[s - 1]][1..] == [];
  }

  lemma SlidingWindowOfOneIsNaive(data: seq<int>)
    ensures WindowRisesBetween(data, 1, 1, |data|) == Rises(data)
  {
    var n := |data|;
    if n >= 1 {
      WindowOfOneIsNaive(data, n);
      assert !RiseAt(data, n - 1);
      assert RisesBetween(data, 0, n) == RisesBetween(data, 0, n - 1);
    }
  }

  // ------------------------------------------------- full windows, shifted readings

  lemma {:induction false} SumAppend(a: seq<int>, b: seq<int>)
    ensures Sum(a + b) == Sum(a) + Sum(b)
    decreases |a|
  {
    if |a| > 0 {
      assert (a + b)[1..] == a[1..] + b;
      SumAppend(a[1..], b);
    } else {
      assert a + b == b;
    }
  }

  /** Two full neighbouring windows share all but one reading at each end, so the later
      one is larger exactly when the reading it gains exceeds the one it loses. */
  lemma FullWindowRise(data: seq<int>, w: int, s: nat)
    requires 1 <= w && 1 <= s && s + w <= |data|
    ensures WindowRiseAt(data, w, s) <==> data[s - 1 + w] > data[s - 1]
  {
    var shared := data[s..s - 1 + w];
    assert Window(data, w, s - 1) == [data[s - 1]] + shared;
    assert Window(data, w, s) == shared + [data[s - 1 + w]];
    SumAppend([data[s - 1]], shared);
    SumAppend(shared, [data[s - 1 + w]]);
  }

  predicate NonNegative(data: seq<int>) {
    forall i :: 0 <= i < |data| ==> data[i] >= 0
  }

  /** A shortened window at the end drops a reading and gains none, so with non-negative
      readings it never rises. */
  lemma TailWindowNeverRises(data: seq<int>, w: int, s: nat)
    requires NonNegative(data) && 1 <= w && 1 <= s && s + w > |data|
    ensures !WindowRiseAt(data, w, s)
  {
    if s < |data| {
      var tail := data[s..];
      assert Window(data, w, s) == tail;
      assert Window(data, w, s - 1) == [data[s - 1]] + tail;
      SumAppend([data[s - 1]], tail);
    }
  }

  /** The reading `w` places on from `i` is strictly deeper. */
  predicate ShiftedRiseAt(data: seq<int>, w: int, i: int) {
    0 <= i < |data| && 0 <= i + w < |data| && data[i + w] > data[i]
  }

  /** The number of `i` in `[0, hi)` with a deeper reading `w` places on. */
  function ShiftedRises(data: seq<int>, w: int, hi: int): nat
    decreases hi
  {
    if hi <= 0 then 0 else ShiftedRises(data, w, hi - 1) + (if ShiftedRiseAt(data, w, hi - 1) then 1 else 0)
  }

  /** For non-negative readings and a window of at least one, the sliding count is the
      number of readings exceeded by the reading `w` places later. */
  lemma {:induction false} SlidingIsShifted(data: seq<int>, w: int, hi: int)
    requires NonNegative(data) && 1 <= w && 1 <= hi <= |data|
    ensures WindowRisesBetween(data, w, 1, hi) == ShiftedRises(data, w, hi - 1)
    decreases hi
  {
    if hi > 1 {
      SlidingIsShifted(data, w, hi - 1);
      var s := hi - 1;
      if s + w <= |data| {
        FullWindowRise(data, w, s);
      } else {
        TailWindowNeverRises(data, w, s);
      }
    }
  }

  /** With negative readings a shortened window can rise: [-1, 0, 0] with a window of
      three counts one increase, though it holds only one full window. */
  lemma NegativeTailWindowRises()
    ensures WindowRisesBetween([-1, 0, 0], 3, 1, 3) == 1
    ensures ShiftedRises([-1, 0, 0], 3, 2) == 0
  {
    var data := [-1, 0, 0];
    assert Window(data, 3, 0) == data && Window(data, 3, 1) == [0, 0] && Window(data, 3, 2) == [0];
    assert Sum(data) == -1 && Sum([0, 0]) == 0 && Sum([0]) == 0;
  }

  // ------------------------------------------------------------------- examples

  /** The examples of the tests, counted naively. */
  lemma SmallExamples()
    ensures Rises([]) == 0 && Rises([199]) == 0 && Rises([199, 200]) == 1
    ensures Rises([199, 200, 205]) == 2 && Rises([199, 197]) == 0 && Rises([199, 200, 199]) == 1
  {
    var a, b, c, d, e := [199], [199, 200], [199, 200, 205], [199, 197], [199, 200, 199];
    assert |a| == 1 && |b| == 2 && |c| == 3 && |d| == 2 && |e| == 3;
    assert RisesBetween(a, 0, 1) == 0 && RisesBetween(b, 0, 2) == 1 && RisesBetween(c, 0, 3) == 2;
    assert RisesBetween(d, 0, 2) == 0 && RisesBetween(e, 0, 3) == 1;
  }

  lemma SecondIncreaseExample()
    ensures Rises([199, 200, 197, 198, 199]) == 3
  {
    var data := [199, 200, 197, 198, 199];
    assert |data| == 5;
    assert RisesBetween(data, 0, 5) == 3;
  }

  lemma SonarExample()
    ensures Rises([199, 200, 208, 210, 200, 207, 240, 269, 260, 263]) == 7
  {
    var data := [199, 200, 208, 210, 200, 207, 240, 269, 260, 263];
    assert |data| == 10;
    assert RisesBetween(data, 0, 10) == 7;
  }

  lemma RealDataExample()
    ensures Rises([193, 197, 188, 170, 162, 180, 183, 211, 213, 235, 238, 237, 234]) == 7
  {
    var data := [193, 197, 188, 170, 162, 180, 183, 211, 213, 235, 238, 237, 234];
    assert |data| == 13;
    assert RisesBetween(data, 0, 6) == 3;
    assert RisesBetween(data, 0, 13) == 7;
  }
}

=== FILE: literals.dfy ===
/** Python's reading of text as a number, shared by the two solvers that read integers:
    `str.strip()`, the whitespace `int()` strips, and the literal grammar of `int(text, base)` for the two bases in use,
    10 (`int(amount)` in the command parser) and 2 (`int(bits, 2)` in the diagnostic). */
module Literals {
  import opened Results

  // ------------------------------------------------------------------ whitespace

  /** The two whitespace sets Python strips. `str.strip()` removes every `str.isspace`
      character. `int()` first turns each non-ASCII whitespace character into a space and
      then strips only ASCII whitespace, so the four ASCII separators U+001C to U+001F,
      which `str.isspace` accepts, stay in the text and make `int()` raise. */
  datatype Whitespace = StrSpace | IntSpace

  /** Python's `str.isspace` on one character. */
  predicate IsStrSpace(c: char) {
    c == ' ' || '\t' <= c <= '\r' || '\U{1C}' <= c <= '\U{1F}' || c == '\U{85}' || c == '\U{A0}'
    || c == '\U{1680}' || '\U{2000}' <= c <= '\U{200A}' || c == '\U{2028}' || c == '\U{2029}'
    || c == '\U{202F}' || c == '\U{205F}' || c == '\U{3000}'
  }

  /** What `int()` strips: ASCII space and `\t\n\v\f\r`, and beyond ASCII what `str.isspace`
      accepts. */
  predicate IsIntSpace(c: char) {
    c == ' ' || '\t' <= c <= '\r' || (c >= '\U{80}' && IsStrSpace(c))
  }

  predicate IsSpace(ws: Whitespace, c: char) {
    match ws
    case StrSpace => IsStrSpace(c)
    case IntSpace => IsIntSpace(c)
  }

  /** `int()` strips exactly the `str.isspace` characters other than U+001C to U+001F. */
  lemma IntSpaceIsStrSpaceButSeparators(c: char)
    ensures IsSpace(IntSpace, c) <==> IsSpace(StrSpace, c) && !('\U{1C}' <= c <= '\U{1F}')
  {
  }

  predicate AllSpace(ws: Whitespace, s: string) {
    forall k :: 0 <= k < |s| ==> IsSpace(ws, s[k])
  }

  /** Neither end of `s` is whitespace. */
  predicate Trimmed(ws: Whitespace, s: string) {
    |s| == 0 || (!IsSpace(ws, s[0]) && !IsSpace(ws, s[|s| - 1]))
  }

  // ---------------------------------------------------------------------- strip

  /** The number of whitespace characters `s` starts with. */
  function LeadingSpaces(ws: Whitespace, s: string): (n: nat)
    ensures n <= |s| && forall k :: 0 <= k < n ==> IsSpace(ws, s[k])
    ensures n < |s| ==> !IsSpace(ws, s[n])
  {
    if |s| == 0 || !IsSpace(ws, s[0]) then 0 else 1 + LeadingSpaces(ws, s[1..])
  }

  /** The number of whitespace characters `s` ends with. */
  function TrailingSpaces(ws: Whitespace, s: string): (n: nat)
    ensures n <= |s| && forall k :: |s| - n <= k < |s| ==> IsSpace(ws, s[k])
    ensures n < |s| ==> !IsSpace(ws, s[|s| - n - 1])
  {
    if |s| == 0 || !IsSpace(ws, s[|s| - 1]) then 0 else 1 + TrailingSpaces(ws, s[..|s| - 1])
  }

  /** The part of `s` between its leading and its trailing whitespace: `str.strip()` for
      `StrSpace`, the stripping inside `int()` for `IntSpace`. */
  function Strip(ws: Whitespace, s: string): (r: string)
    ensures Trimmed(ws, r)
    ensures exists i, j :: 0 <= i <= j <= |s| && r == s[i..j] && AllSpace(ws, s[..i]) && AllSpace(ws, s[j..])
  {
    var i := LeadingSpaces(ws, s);
    var n := TrailingSpaces(ws, s[i..]);
    LeadingAreSpace(ws, s, i);
    TrailingAreSpace(ws, s, i, n);
    MiddleIsTrimmed(ws, s, i, n);
    s[i..|s| - n]
  }

  lemma LeadingAreSpace(ws: Whitespace, s: string, i: nat)
    requires i == LeadingSpaces(ws, s)
    ensures AllSpace(ws, s[..i])
  {
    forall k | 0 <= k < i ensures IsSpace(ws, s[..i][k]) {
      assert s[..i][k] == s[k];
    }
  }

  /** The trailing whitespace of what follows the leading whitespace, seen in `s` itself. */
  lemma TrailingAreSpace(ws: Whitespace, s: string, i: nat, n: nat)
    requires i <= |s| && n == TrailingSpaces(ws, s[i..])
    ensures i <= |s| - n && AllSpace(ws, s[|s| - n..])
  {
    var t := s[i..];
    var tail := s[|s| - n..];
    forall k | 0 <= k < |tail| ensures IsSpace(ws, tail[k]) {
      assert tail[k] == t[|t| - n + k];
    }
  }

  /** What lies between the two runs of whitespace starts and ends with a non-space. */
  lemma MiddleIsTrimmed(ws: Whitespace, s: string, i: nat, n: nat)
    requires i <= |s| && (i < |s| ==> !IsSpace(ws, s[i])) && n == TrailingSpaces(ws, s[i..])
    ensures i <= |s| - n && Trimmed(ws, s[i..|s| - n])
  {
    var t := s[i..];
    var r := s[i..|s| - n];
    if |r| > 0 {
      assert r[0] == s[i] && r[|r| - 1] == t[|t| - n - 1];
    }
  }

  /** Whitespace around a trimmed text is exactly what `strip` removes. */
  lemma StripOfPadded(ws: Whitespace, before: string, text: string, after: string)
    requires AllSpace(ws, before) && AllSpace(ws, after) && Trimmed(ws, text)
    ensures Strip(ws, before + text + after) == text
  {
    var s := before + text + after;
    LeadingOfPadded(ws, before, text, after);
    var t := s[LeadingSpaces(ws, s)..];
    if |text| == 0 {
      assert t == [];
    } else {
      assert t == text + after;
      TrailingOfPadded(ws, text, after);
      assert s[|before|..|s| - |after|] == text;
    }
  }

  lemma {:induction false} LeadingOfPadded(ws: Whitespace, before: string, text: string, after: string)
    requires AllSpace(ws, before) && AllSpace(ws, after) && Trimmed(ws, text)
    ensures LeadingSpaces(ws, before + text + after) == if |text| == 0 then |before| + |after| else |before|
    decreases |before|
  {
    var s := before + text + after;
    if |before| > 0 {
      assert s[1..] == before[1..] + text + after;
      LeadingOfPadded(ws, before[1..], text, after);
    } else if |text| == 0 {
      assert s == after;
      LeadingOfSpace(ws, after);
    } else {
      assert s[0] == text[0];
    }
  }

  lemma {:induction false} LeadingOfSpace(ws: Whitespace, s: string)
    requires AllSpace(ws, s)
    ensures LeadingSpaces(ws, s) == |s|
  {
    if |s| > 0 {
      LeadingOfSpace(ws, s[1..]);
    }
  }

  lemma {:induction false} TrailingOfPadded(ws: Whitespace, text: string, after: string)
    requires AllSpace(ws, after) && Trimmed(ws, text) && |text| > 0
    ensures TrailingSpaces(ws, text + after) == |after|
    decreases |after|
  {
    var s := text + after;
    if |after| > 0 {
      assert s[..|s| - 1] == text + after[..|after| - 1];
      TrailingOfPadded(ws, text, after[..|after| - 1]);
    } else {
      assert s == text;
    }
  }

  /** A trimmed text is left alone by `strip`. */
  lemma StripOfTrimmed(ws: Whitespace, s: string)
    requires Trimmed(ws, s)
    ensures Strip(ws, s) == s
  {
    StripOfPadded(ws, "", s, "");
    assert "" + s + "" == s;
  }

  /** A text that starts with a non-space keeps its first character through `strip`. */
  lemma StripKeepsFirst(ws: Whitespace, s: string)
    requires |s| > 0 && !IsSpace(ws, s[0])
    ensures |Strip(ws, s)| > 0 && Strip(ws, s)[0] == s[0]
  {
    assert LeadingSpaces(ws, s) == 0 && s[0..] == s;
  }

  /** Stripping twice is stripping once. */
  lemma StripIsIdempotent(ws: Whitespace, s: string)
    ensures Strip(ws, Strip(ws, s)) == Strip(ws, s)
  {
    StripOfTrimmed(ws, Strip(ws, s));
  }

  /** `int()` leaves the separators that `str.strip()` removes: U+001C before "5" is stripped
      by `str.strip()` but not by `int()`. */
  lemma SeparatorStripExample()
    ensures Strip(StrSpace, "\U{1C}5") == "5"
    ensures Strip(IntSpace, "\U{1C}5") == "\U{1C}5"
  {
    StripOfPadded(StrSpace, "\U{1C}", "5", "");
    assert "\U{1C}" + "5" + "" == "\U{1C}5";
    StripOfTrimmed(IntSpace, "\U{1C}5");
  }

  // ------------------------------------------------------------ int(text, base)

  /** An ASCII digit of the base. */
  predicate IsDigit(c: char, base: nat) {
    '0' <= c <= '9' && c as int - '0' as int < base
  }

  predicate AllDigits(s: string, base: nat) {
    forall k :: 0 <= k < |s| ==> IsDigit(s[k], base)
  }

  function DigitValue(c: char): nat
    requires '0' <= c <= '9'
  {
    c as int - '0' as int
  }

  /** The value of a run of digits of the base, most significant first. */
  function DigitsValue(s: string, base: nat): nat
    requires AllDigits(s, base)
  {
    if |s| == 0 then 0 else base * DigitsValue(s[..|s| - 1], base) + DigitValue(s[|s| - 1])
  }

  /** The digit part of a literal: digits, with single underscores between them. */
  predicate IsDigitGroups(s: string, base: nat) {
    && |s| > 0 && IsDigit(s[0], base) && IsDigit(s[|s| - 1], base)
    && (forall k :: 0 <= k < |s| ==> IsDigit(s[k], base) || s[k] == '_')
    && (forall k :: 0 <= k < |s| - 1 ==> s[k] != '_' || s[k + 1] != '_')
  }

  /** `s` with its underscores taken out. */
  function Unscore(s: string): string {
    if |s| == 0 then "" else Unscore(s[..|s| - 1]) + (if s[|s| - 1] == '_' then "" else [s[|s| - 1]])
  }

  /** Nothing, `+` or `-`. */
  predicate IsSign(p: string) {
    |p| == 0 || (|p| == 1 && (p[0] == '+' || p[0] == '-'))
  }

  /** The sign `-`. */
  predicate IsMinus(p: string) {
    |p| == 1 && p[0] == '-'
  }

  /** What may stand between the sign and the digits: nothing, or in base 2 the prefix
      `0b` or `0B`, which one underscore may follow. */
  predicate IsBasePrefix(p: string, base: nat) {
    || |p| == 0
    || (base == 2 && 2 <= |p| <= 3 && p[0] == '0' && (p[1] == 'b' || p[1] == 'B') && (|p| == 3 ==> p[2] == '_'))
  }

  /** The stripped texts `int(text, base)` accepts: a sign, a prefix, then digit groups. */
  predicate IsIntLiteral(t: string, base: nat) {
    exists i, j :: 0 <= i <= j <= |t| && IsSign(t[..i]) && IsBasePrefix(t[i..j], base) && IsDigitGroups(t[j..], base)
  }

  /** The length of the sign `t` starts with. */
  function SignLength(t: string): (n: nat)
    ensures n <= |t|
  {
    if |t| > 0 && (t[0] == '+' || t[0] == '-') then 1 else 0
  }

  /** The length of the base prefix `u` starts with. */
  function PrefixLength(u: string, base: nat): (n: nat)
    ensures n <= |u|
  {
    if base == 2 && |u| >= 2 && u[0] == '0' && (u[1] == 'b' || u[1] == 'B') then
      if |u| >= 3 && u[2] == '_' then 3 else 2
    else 0
  }

  /** CPython's default `sys.get_int_max_str_digits()`: `int(text, base)` raises
      `ValueError` on a literal of more digits than this, unless the base is a power of two. */
  const MaxStrDigits: nat := 4300

  /** What follows the sign and the base prefix of a literal: its digit groups. */
  function DigitPart(t: string, base: nat): string {
    var i := SignLength(t);
    t[i + PrefixLength(t[i..], base)..]
  }

  /** The digits of a literal, underscores not counted, stay within the limit `int()`
      enforces; base 2 is exempt. */
  predicate WithinDigitLimit(t: string, base: nat) {
    base == 2 || |Unscore(DigitPart(t, base))| <= MaxStrDigits
  }

  /** `int(text, base)` for base 2 or 10: the value of the literal left once `int()` has
      stripped its whitespace, or `None` where Python raises `ValueError`: on a text that
      is not a literal, and in base 10 on a literal of more than `MaxStrDigits` digits. */
  function IntText(s: string, base: nat): (r: Option<int>)
    requires base == 2 || base == 10
    ensures r.Some? <==> IsIntLiteral(Strip(IntSpace, s), base) && WithinDigitLimit(Strip(IntSpace, s), base)
    ensures r.Some? && r.value < 0 ==> Strip(IntSpace, s)[0] == '-'
  {
    LiteralValue(Strip(IntSpace, s), base)
  }

  /** The value of a stripped literal within the digit limit, negated after a minus sign. */
  function LiteralValue(t: string, base: nat): (r: Option<int>)
    requires base == 2 || base == 10
    ensures r.Some? <==> IsIntLiteral(t, base) && WithinDigitLimit(t, base)
    ensures r.Some? && r.value < 0 ==> t[0] == '-'
  {
    var i := SignLength(t);
    var j := i + PrefixLength(t[i..], base);
    LiteralSplit(t, base);
    if IsDigitGroups(t[j..], base) && WithinDigitLimit(t, base) then
      UnscoreOfGroups(t[j..], base);
      Some(Signed(IsMinus(t[..i]), DigitsValue(Unscore(t[j..]), base)))
    else None
  }

  /** `v`, negated when `negative`. */
  function Signed(negative: bool, v: nat): int {
    if negative then -(v as int) else v
  }

  /** A literal splits one way only: its sign and its prefix are as long as
      `SignLength` and `PrefixLength` say, so only the rest decides. */
  lemma LiteralSplit(t: string, base: nat)
    ensures var i := SignLength(t);
            var j := i + PrefixLength(t[i..], base);
            IsIntLiteral(t, base) <==> IsDigitGroups(t[j..], base)
  {
    var i := SignLength(t);
    var u := t[i..];
    var j := i + PrefixLength(u, base);
    if IsDigitGroups(t[j..], base) {
      assert IsSign(t[..i]) by {
        if i == 1 {
          assert t[..i] == [t[0]];
        }
      }
      assert IsBasePrefix(t[i..j], base) by {
        if j == i + 2 {
          assert t[i..j] == [u[0], u[1]];
        } else if j == i + 3 {
          assert t[i..j] == [u[0], u[1], u[2]];
        }
      }
    }
    if IsIntLiteral(t, base) {
      var i', j' :| 0 <= i' <= j' <= |t| && IsSign(t[..i']) && IsBasePrefix(t[i'..j'], base)
                     && IsDigitGroups(t[j'..], base);
      SplitIsUnique(t, base, i', j');
    }
  }

  lemma SplitIsUnique(t: string, base: nat, i: nat, j: nat)
    requires i <= j <= |t| && IsSign(t[..i]) && IsBasePrefix(t[i..j], base) && IsDigitGroups(t[j..], base)
    ensures i == SignLength(t) && j == i + PrefixLength(t[i..], base)
  {
    var p, g := t[i..j], t[j..];
    assert t[i..] == p + g;
    assert |g| > 1 ==> IsDigit(g[1], base) || g[1] == '_';
    PrefixIsUnique(t[i..], p, g, base);
    assert t[i] == (if |p| > 0 then p[0] else g[0]);
    SignIsUnique(t, i);
  }

  /** A sign is followed by neither sign: only the first character can be one. */
  lemma SignIsUnique(t: string, i: nat)
    requires i < |t| && IsSign(t[..i]) && t[i] != '+' && t[i] != '-'
    ensures i == SignLength(t)
  {
    if i == 1 {
      assert t[..i][0] == t[0];
    }
  }

  /** Digits contain no `b`, so the prefix before them is the one `PrefixLength` finds. */
  lemma PrefixIsUnique(u: string, p: string, g: string, base: nat)
    requires u == p + g && IsBasePrefix(p, base)
    requires |g| > 0 && IsDigit(g[0], base) && (|g| > 1 ==> IsDigit(g[1], base) || g[1] == '_')
    ensures |p| == PrefixLength(u, base)
  {
    if |p| == 0 {
      assert u == g;
    } else {
      assert u[0] == p[0] && u[1] == p[1];
      assert u[2] == (if |p| == 3 then p[2] else g[0]);
    }
  }

  /** Underscores count for nothing: the digit groups lose them and keep their digits. */
  lemma {:induction false} UnscoreOfGroups(s: string, base: nat)
    requires forall k :: 0 <= k < |s| ==> IsDigit(s[k], base) || s[k] == '_'
    ensures AllDigits(Unscore(s), base)
  {
    if |s| > 0 {
      UnscoreOfGroups(s[..|s| - 1], base);
    }
  }

  /** Removing underscores distributes over concatenation. */
  lemma {:induction false} UnscoreOfAppend(x: string, y: string)
    ensures Unscore(x + y) == Unscore(x) + Unscore(y)
    decreases |y|
  {
    if |y| == 0 {
      assert x + y == x;
    } else {
      var init := y[..|y| - 1];
      assert (x + y)[..|x + y| - 1] == x + init;
      UnscoreOfAppend(x, init);
    }
  }

  /** Digits alone are their own unscored form. */
  lemma {:induction false} UnscoreOfPlain(s: string, base: nat)
    requires AllDigits(s, base)
    ensures Unscore(s) == s
  {
    if |s| > 0 {
      UnscoreOfPlain(s[..|s| - 1], base);
      assert s == s[..|s| - 1] + [s[|s| - 1]];
    }
  }

  lemma DigitIsNotSpace(c: char, base: nat)
    requires IsDigit(c, base)
    ensures !IsSpace(StrSpace, c) && !IsSpace(IntSpace, c)
  {
  }

  /** Two runs without underscores joined by one lose just that underscore. */
  lemma UnscoreOfJoined(a: string, b: string, base: nat)
    requires AllDigits(a, base) && AllDigits(b, base)
    ensures Unscore(a + "_" + b) == a + b
  {
    UnscoreOfAppend(a + "_", b);
    UnscoreOfAppend(a, "_");
    assert Unscore("_") == "";
    UnscoreOfPlain(a, base);
    UnscoreOfPlain(b, base);
  }

  /** Plain digits are digit groups without a prefix. */
  lemma DigitsAreGroups(digits: string, base: nat)
    requires |digits| > 0 && AllDigits(digits, base)
    ensures IsDigitGroups(digits, base) && PrefixLength(digits, base) == 0
  {
    assert |digits| >= 2 ==> IsDigit(digits[1], base);
  }

  /** Digits with an optional sign read as their value. */
  lemma LiteralValueOfDigits(sign: string, digits: string, base: nat)
    requires base == 2 || base == 10
    requires IsSign(sign) && |digits| > 0 && AllDigits(digits, base)
    ensures LiteralValue(sign + digits, base) ==
              if base == 2 || |digits| <= MaxStrDigits then Some(Signed(IsMinus(sign), DigitsValue(digits, base))) else None
  {
    var t := sign + digits;
    var i := SignLength(t);
    assert i == |sign| && t[..i] == sign && t[i..] == digits by {
      assert t[0] == (if |sign| == 0 then digits[0] else sign[0]);
    }
    DigitsAreGroups(digits, base);
    UnscoreOfPlain(digits, base);
    LiteralValueOfSplit(t, base, i, i);
  }

  /** The value of a literal once its sign and prefix are known. */
  lemma LiteralValueOfSplit(t: string, base: nat, i: nat, j: nat)
    requires base == 2 || base == 10
    requires i == SignLength(t) && j == i + PrefixLength(t[i..], base) && IsDigitGroups(t[j..], base)
    ensures AllDigits(Unscore(t[j..]), base)
    ensures LiteralValue(t, base) ==
              if base == 2 || |Unscore(t[j..])| <= MaxStrDigits
              then Some(Signed(IsMinus(t[..i]), DigitsValue(Unscore(t[j..]), base)))
              else None
  {
    UnscoreOfGroups(t[j..], base);
  }

  /** Digits with an optional sign, and whitespace around them, read as their value. */
  lemma IntTextOfDigits(s: string, before: string, sign: string, digits: string, after: string, base: nat)
    requires base == 2 || base == 10
    requires s == before + sign + digits + after
    requires AllSpace(IntSpace, before) && AllSpace(IntSpace, after) && IsSign(sign) && |digits| > 0 && AllDigits(digits, base)
    ensures IntText(s, base) ==
              if base == 2 || |digits| <= MaxStrDigits then Some(Signed(IsMinus(sign), DigitsValue(digits, base))) else None
  {
    var t := sign + digits;
    assert s == before + t + after && Trimmed(IntSpace, t) by {
      assert t[0] == (if |sign| == 0 then digits[0] else sign[0]);
      assert t[|t| - 1] == digits[|digits| - 1];
    }
    StripOfPadded(IntSpace, before, t, after);
    LiteralValueOfDigits(sign, digits, base);
  }

  /** On a trimmed text `int` reads the literal as it stands. */
  lemma IntTextOfTrimmed(s: string, base: nat)
    requires base == 2 || base == 10
    requires Trimmed(IntSpace, s)
    ensures IntText(s, base) == LiteralValue(s, base)
  {
    StripOfTrimmed(IntSpace, s);
  }

  /** Plain digits read as their value. */
  lemma LiteralValueOfPlain(digits: string, base: nat)
    requires base == 2 || base == 10
    requires |digits| > 0 && AllDigits(digits, base)
    ensures LiteralValue(digits, base) == if base == 2 || |digits| <= MaxStrDigits then Some(DigitsValue(digits, base)) else None
  {
    assert "" + digits == digits;
    LiteralValueOfDigits("", digits, base);
  }

  /** An underscore between two runs of digits does not change the value. */
  lemma IntTextIgnoresUnderscore(a: string, b: string, base: nat)
    requires base == 2 || base == 10
    requires |a| > 0 && |b| > 0 && AllDigits(a, base) && AllDigits(b, base)
    ensures AllDigits(a + b, base)
    ensures IntText(a + "_" + b, base) == IntText(a + b, base) ==
              if base == 2 || |a| + |b| <= MaxStrDigits then Some(DigitsValue(a + b, base)) else None
  {
    var s, ab := a + "_" + b, a + b;
    DigitIsNotSpace(a[0], base);
    DigitIsNotSpace(b[|b| - 1], base);
    assert Trimmed(IntSpace, s) && Trimmed(IntSpace, ab) by {
      assert s[0] == a[0] == ab[0] && s[|s| - 1] == b[|b| - 1] == ab[|ab| - 1];
    }
    IntTextOfTrimmed(s, base);
    IntTextOfTrimmed(ab, base);
    LiteralValueIgnoresUnderscore(a, b, base);
    LiteralValueOfPlain(ab, base);
  }

  lemma LiteralValueIgnoresUnderscore(a: string, b: string, base: nat)
    requires base == 2 || base == 10
    requires |a| > 0 && |b| > 0 && AllDigits(a, base) && AllDigits(b, base)
    ensures AllDigits(a + b, base)
    ensures LiteralValue(a + "_" + b, base) == if base == 2 || |a| + |b| <= MaxStrDigits then Some(DigitsValue(a + b, base)) else None
  {
    var s := a + "_" + b;
    assert AllDigits(a + b, base);
    assert SignLength(s) == 0 && s[0..] == s by {
      assert s[0] == a[0];
    }
    assert PrefixLength(s, base) == 0 by {
      assert s[1] == '_' || IsDigit(s[1], base);
    }
    assert IsDigitGroups(s, base) by {
      forall k | 0 <= k < |s| ensures IsDigit(s[k], base) || s[k] == '_' {
        assert s[k] == (if k < |a| then a[k] else if k == |a| then '_' else b[k - |a| - 1]);
      }
      forall k | 0 <= k < |s| - 1 ensures s[k] != '_' || s[k + 1] != '_' {
        assert s[k] == (if k < |a| then a[k] else if k == |a| then '_' else b[k - |a| - 1]);
        assert s[k + 1] == (if k + 1 < |a| then a[k + 1] else if k + 1 == |a| then '_' else b[k - |a|]);
      }
    }
    UnscoreOfJoined(a, b, base);
    LiteralValueOfSplit(s, base, 0, 0);
  }

  /** The binary prefix, with or without an underscore after it, does not change the value. */
  lemma IntTextIgnoresBinaryPrefix(p: string, digits: string)
    requires IsBasePrefix(p, 2) && |p| > 0
    requires |digits| > 0 && AllDigits(digits, 2)
    ensures IntText(p + digits, 2) == IntText(digits, 2) == Some(DigitsValue(digits, 2))
  {
    var s := p + digits;
    DigitIsNotSpace(digits[0], 2);
    DigitIsNotSpace(digits[|digits| - 1], 2);
    assert s[0] == p[0] && s[|s| - 1] == digits[|digits| - 1];
    DigitIsNotSpace(s[0], 2);
    assert Trimmed(IntSpace, s);
    IntTextOfTrimmed(s, 2);
    IntTextOfTrimmed(digits, 2);
    LiteralValueIgnoresBinaryPrefix(p, digits);
    LiteralValueOfPlain(digits, 2);
  }

  lemma LiteralValueIgnoresBinaryPrefix(p: string, digits: string)
    requires IsBasePrefix(p, 2) && |p| > 0
    requires |digits| > 0 && AllDigits(digits, 2)
    ensures LiteralValue(p + digits, 2) == Some(DigitsValue(digits, 2))
  {
    var s := p + digits;
    assert SignLength(s) == 0 && s[0..] == s && s[|p|..] == digits by {
      assert s[0] == '0';
    }
    assert PrefixLength(s, 2) == |p| by {
      assert s[1] == p[1];
      assert s[2] == (if |p| == 3 then '_' else digits[0]);
    }
    assert IsDigitGroups(digits, 2);
    UnscoreOfPlain(digits, 2);
    LiteralValueOfSplit(s, 2, 0, |p|);
  }

  /** A literal starts with a sign or a digit of the base (`0` of the base-2 prefix included). */
  lemma NotLiteralOfBadStart(t: string, base: nat)
    requires |t| > 0 && t[0] != '+' && t[0] != '-' && !IsDigit(t[0], base)
    ensures !IsIntLiteral(t, base)
  {
    LiteralSplit(t, base);
    assert t[0..] == t;
  }

  /** A literal ends with a digit of the base. */
  lemma NotLiteralOfBadEnd(t: string, base: nat)
    requires |t| > 0 && !IsDigit(t[|t| - 1], base)
    ensures !IsIntLiteral(t, base)
  {
    LiteralSplit(t, base);
    var i := SignLength(t);
    var j := i + PrefixLength(t[i..], base);
    if j < |t| {
      assert t[j..][|t| - j - 1] == t[|t| - 1];
    }
  }

  /** The digit limit at work: 4301 ones are no decimal number for `int()`, but they
      are a binary one, and 4300 ones are a decimal one. */
  lemma DigitLimitExample()
    ensures IntText(seq(MaxStrDigits + 1, _ => '1'), 10) == None
    ensures IntText(seq(MaxStrDigits + 1, _ => '1'), 2).Some?
    ensures IntText(seq(MaxStrDigits, _ => '1'), 10).Some?
  {
    OnesRead(MaxStrDigits + 1, 10);
    OnesRead(MaxStrDigits + 1, 2);
    OnesRead(MaxStrDigits, 10);
  }

  /** A run of `n` ones read in base 2 or 10, within the digit limit or not. */
  lemma OnesRead(n: nat, base: nat)
    requires n > 0 && (base == 2 || base == 10)
    ensures IntText(seq(n, _ => '1'), base).Some? <==> base == 2 || n <= MaxStrDigits
  {
    var ones := seq(n, _ => '1');
    assert ones == "" + "" + ones + "";
    IntTextOfDigits(ones, "", "", ones, "", base);
  }

  /** `int()` raises on a separator that `str.strip()` would have removed: "\x1c5" is no
      number, while "\x1c5".strip() is "5". */
  lemma IntTextRejectsSeparatorExample()
    ensures Strip(StrSpace, "\U{1C}5") == "5"
    ensures IntText("\U{1C}5", 10) == None
  {
    SeparatorStripExample();
    NotLiteralOfBadStart("\U{1C}5", 10);
  }
}

=== FILE: navigation.dfy ===
/** The submarine of day02/__main__.py: a position that commands move, either directly
    (`Position`) or by steering an aim first (`PositionWithAim`). */
module Navigation {
  import opened Results
  import opened Commands

  /** `Position` and its subclass `PositionWithAim`: both have a horizontal distance and a
      depth; the aimed one also has an aim. */
  datatype Position =
    | Plain(horizontal: int, depth: int)
    | WithAim(horizontal: int, depth: int, aim: int)

  /** `product`: depth times horizontal distance. It is zero exactly when the submarine
      is at the surface or has not advanced, and never negative below the surface ahead
      of the start. */
  function Product(p: Position): (r: int)
    ensures r == 0 <==> p.horizontal == 0 || p.depth == 0
    ensures p.horizontal >= 0 && p.depth >= 0 ==> r >= 0
  {
    p.depth * p.horizontal
  }

  /** `position + command`: a plain position adds the command's deltas; an aimed one adds
      the horizontal delta, steers the aim by the depth delta of `Down` and `Up`, and sinks
      by aim times the horizontal delta of `Forward`. */
  function Move(p: Position, c: Command): (r: Position)
    ensures r.Plain? == p.Plain?
  {
    match p
    case Plain(h, d) => Plain(h + c.horizontal, d + c.depth)
    case WithAim(h, d, a) =>
      var steered := if c.move == Down || c.move == Up then a + c.depth else a;
      var sunk := if c.move == Forward then d + steered * c.horizontal else d;
      WithAim(h + c.horizontal, sunk, steered)
  }

  /** What `Forward(n)`, `Down(n)` and `Up(n)` do to a plain position. */
  lemma MovePlain(h: int, d: int, m: Move, n: int)
    ensures Move(Plain(h, d), MakeCommand(m, n)) ==
            match m
            case Forward => Plain(h + n, d)
            case Down => Plain(h, d + n)
            case Up => Plain(h, d - n)
  {
  }

  /** What `Forward(n)`, `Down(n)` and `Up(n)` do to an aimed position: down and up only
      steer, forward only advances and sinks by aim times n. */
  lemma MoveWithAim(h: int, d: int, a: int, m: Move, n: int)
    ensures Move(WithAim(h, d, a), MakeCommand(m, n)) ==
            match m
            case Forward => WithAim(h + n, d + a * n, a)
            case Down => WithAim(h, d, a + n)
            case Up => WithAim(h, d, a - n)
  {
  }

  /** A command of amount zero moves nothing, for either kind of position. */
  lemma ZeroAmountMovesNothing(p: Position, m: Move)
    ensures Move(p, MakeCommand(m, 0)) == p
  {
  }

  /** The `NotImplementedError` of adding a plain position to an aimed one. */
  datatype AddError = NotImplemented

  /** `position + position`: the left operand's class decides. A plain position takes
      either kind and adds both coordinates; an aimed position takes only an aimed one and
      adds only the horizontal distances, keeping its own depth and aim. */
  function Plus(p: Position, q: Position): (r: Result<Position, AddError>)
    ensures r.Err? <==> p.WithAim? && q.Plain?
    ensures r.Ok? ==> r.value.Plain? == p.Plain?
  {
    match p
    case Plain(h, d) => Ok(Plain(h + q.horizontal, d + q.depth))
    case WithAim(h, d, a) =>
      if q.WithAim? then Ok(WithAim(h + q.horizontal, d, a)) else Err(NotImplemented)
  }

  /** The delta a command carries, as a plain position. */
  function Delta(c: Command): Position {
    Plain(c.horizontal, c.depth)
  }

  /** Plain addition is a commutative monoid with the origin as identity, and adding a
      command is adding its delta. */
  lemma PlainPlusLaws(a: Position, b: Position, c: Position, cmd: Command)
    requires a.Plain? && b.Plain? && c.Plain?
    ensures Plus(a, Plain(0, 0)) == Ok(a) && Plus(Plain(0, 0), a) == Ok(a)
    ensures Plus(a, b).value == Plus(b, a).value
    ensures Plus(Plus(a, b).value, c) == Plus(a, Plus(b, c).value)
    ensures Plus(a, Delta(cmd)) == Ok(Move(a, cmd))
  {
  }

  /** Aimed addition keeps the left depth and aim, so it does not commute. */
  lemma AimPlusDoesNotCommute()
    ensures Plus(WithAim(0, 1, 0), WithAim(0, 2, 0)) != Plus(WithAim(0, 2, 0), WithAim(0, 1, 0))
  {
  }

  /** `Submarine.move_multiple`: a left-to-right fold of `move`. */
  function Travel(p: Position, cmds: seq<Command>): (r: Position)
    ensures r.Plain? == p.Plain?
    decreases |cmds|
  {
    if |cmds| == 0 then p else Travel(Move(p, cmds[0]), cmds[1..])
  }

  /** Travelling a concatenation is travelling its parts in turn. */
  lemma {:induction false} TravelAppend(p: Position, a: seq<Command>, b: seq<Command>)
    ensures Travel(p, a + b) == Travel(Travel(p, a), b)
    decreases |a|
  {
    if |a| > 0 {
      assert (a + b)[0] == a[0] && (a + b)[1..] == a[1..] + b;
      TravelAppend(Move(p, a[0]), a[1..], b);
    } else {
      assert a + b == b;
    }
  }

  lemma TravelPair(p: Position, x: Command, y: Command)
    ensures Travel(p, [x, y]) == Move(Move(p, x), y)
  {
    assert [x, y][1..] == [y];
    assert Travel(Move(p, x), [y]) == Travel(Move(Move(p, x), y), []) by {
      assert [y][1..] == [];
    }
  }

  /** The horizontal and the depth deltas of a list of commands, summed. */
  function SumHorizontal(cmds: seq<Command>): int {
    if |cmds| == 0 then 0 else cmds[0].horizontal + SumHorizontal(cmds[1..])
  }

  function SumDepth(cmds: seq<Command>): int {
    if |cmds| == 0 then 0 else cmds[0].depth + SumDepth(cmds[1..])
  }

  /** A plain position ends up displaced by the summed deltas. */
  lemma {:induction false} PlainTravelIsSum(h: int, d: int, cmds: seq<Command>)
    ensures Travel(Plain(h, d), cmds) == Plain(h + SumHorizontal(cmds), d + SumDepth(cmds))
    decreases |cmds|
  {
    if |cmds| > 0 {
      PlainTravelIsSum(h + cmds[0].horizontal, d + cmds[0].depth, cmds[1..]);
    }
  }

  /** From the origin, a plain submarine's `product` is the summed depth delta times the
      summed horizontal delta of its course. */
  lemma PlainCourseProduct(cmds: seq<Command>)
    ensures Product(Travel(Plain(0, 0), cmds)) == SumDepth(cmds) * SumHorizontal(cmds)
  {
    PlainTravelIsSum(0, 0, cmds);
  }

  /** Two commands commute on a plain position, so swapping neighbours anywhere in the
      list changes nothing. */
  lemma PlainTravelSwap(p: Position, before: seq<Command>, x: Command, y: Command, after: seq<Command>)
    requires p.Plain?
    ensures Travel(p, before + [x, y] + after) == Travel(p, before + [y, x] + after)
  {
    TravelAppend(p, before + [x, y], after);
    TravelAppend(p, before + [y, x], after);
    TravelAppend(p, before, [x, y]);
    TravelAppend(p, before, [y, x]);
    var q := Travel(p, before);
    TravelPair(q, x, y);
    TravelPair(q, y, x);
  }

  /** With an aim, order matters: sinking needs the aim first. */
  lemma AimTravelOrderMatters()
    ensures Travel(WithAim(0, 0, 0), [MakeCommand(Down, 1), MakeCommand(Forward, 1)]) == WithAim(1, 1, 1)
    ensures Travel(WithAim(0, 0, 0), [MakeCommand(Forward, 1), MakeCommand(Down, 1)]) == WithAim(1, 0, 1)
  {
    TravelPair(WithAim(0, 0, 0), MakeCommand(Down, 1), MakeCommand(Forward, 1));
    TravelPair(WithAim(0, 0, 0), MakeCommand(Forward, 1), MakeCommand(Down, 1));
  }

  /** The aim evolves as a plain depth does: for commands as `parse_string` builds them,
      an aimed position's horizontal distance and aim follow the plain position's
      horizontal distance and depth. */
  lemma {:induction false} AimTracksPlain(h: int, d: int, a: int, cmds: seq<Command>)
    requires forall i :: 0 <= i < |cmds| ==> WellBuilt(cmds[i])
    ensures var q, p := Travel(WithAim(h, d, a), cmds), Travel(Plain(h, a), cmds);
            q.WithAim? && q.horizontal == p.horizontal && q.aim == p.depth
    decreases |cmds|
  {
    if |cmds| > 0 {
      var q := Move(WithAim(h, d, a), cmds[0]);
      AimTracksPlainStep(h, d, a, cmds[0]);
      AimTracksPlain(q.horizontal, q.depth, q.aim, cmds[1..]);
    }
  }

  /** Every command `parse_string` returns is well built, so a course read from text
      keeps the aim in step with the plain depth. */
  lemma ParsedCourseTracksPlain(h: int, d: int, a: int, lines: seq<string>, cmds: seq<Command>)
    requires |lines| == |cmds| && forall i :: 0 <= i < |cmds| ==> ParseCommand(lines[i]) == Ok(cmds[i])
    ensures var q, p := Travel(WithAim(h, d, a), cmds), Travel(Plain(h, a), cmds);
            q.WithAim? && q.horizontal == p.horizontal && q.aim == p.depth
  {
    forall i | 0 <= i < |cmds| ensures WellBuilt(cmds[i]) {
      assert ParseCommand(lines[i]).Ok?;
    }
    AimTracksPlain(h, d, a, cmds);
  }

  lemma AimTracksPlainStep(h: int, d: int, a: int, c: Command)
    requires WellBuilt(c)
    ensures var q, p := Move(WithAim(h, d, a), c), Move(Plain(h, a), c);
            q.horizontal == p.horizontal && q.aim == p.depth
  {
  }

  /** Commands that only steer, followed by commands that only advance, starting from the
      surface: the aimed depth is the plain product. */
  lemma SteerThenAdvance(steer: seq<Command>, ahead: seq<Command>)
    requires forall i :: 0 <= i < |steer| ==> steer[i].move != Forward && WellBuilt(steer[i])
    requires forall i :: 0 <= i < |ahead| ==> ahead[i].move == Forward && WellBuilt(ahead[i])
    ensures Travel(WithAim(0, 0, 0), steer + ahead).depth == Product(Travel(Plain(0, 0), steer + ahead))
  {
    var a, x := SumDepth(steer), SumHorizontal(ahead);
    TravelAppend(WithAim(0, 0, 0), steer, ahead);
    SteeringOnly(0, 0, 0, steer);
    AdvancingOnly(0, 0, a, ahead);
    assert Travel(WithAim(0, 0, 0), steer + ahead).depth == a * x;
    PlainTravelIsSum(0, 0, steer + ahead);
    SumsOfAppend(steer, ahead);
    assert Travel(Plain(0, 0), steer + ahead) == Plain(x, a);
  }

  lemma {:induction false} SteeringOnly(h: int, d: int, a: int, steer: seq<Command>)
    requires forall i :: 0 <= i < |steer| ==> steer[i].move != Forward && WellBuilt(steer[i])
    ensures Travel(WithAim(h, d, a), steer) == WithAim(h, d, a + SumDepth(steer))
    ensures SumHorizontal(steer) == 0
    decreases |steer|
  {
    if |steer| > 0 {
      assert WellBuilt(steer[0]);
      SteeringOnly(h, d, a + steer[0].depth, steer[1..]);
    }
  }

  lemma {:induction false} AdvancingOnly(h: int, d: int, a: int, ahead: seq<Command>)
    requires forall i :: 0 <= i < |ahead| ==> ahead[i].move == Forward && WellBuilt(ahead[i])
    ensures Travel(WithAim(h, d, a), ahead) == WithAim(h + SumHorizontal(ahead), d + a * SumHorizontal(ahead), a)
    ensures SumDepth(ahead) == 0
    decreases |ahead|
  {
    if |ahead| > 0 {
      var n := ahead[0].horizontal;
      assert WellBuilt(ahead[0]);
      AdvancingOnly(h + n, d + a * n, a, ahead[1..]);
      assert a * n + a * SumHorizontal(ahead[1..]) == a * SumHorizontal(ahead);
    }
  }

  lemma {:induction false} SumsOfAppend(a: seq<Command>, b: seq<Command>)
    ensures SumHorizontal(a + b) == SumHorizontal(a) + SumHorizontal(b)
    ensures SumDepth(a + b) == SumDepth(a) + SumDepth(b)
    decreases |a|
  {
    if |a| > 0 {
      assert (a + b)[0] == a[0] && (a + b)[1..] == a[1..] + b;
      SumsOfAppend(a[1..], b);
    } else {
      assert a + b == b;
    }
  }

  /** Going down and back up by the same amount returns to the same position. */
  lemma DownThenUpCancel(p: Position, n: int)
    ensures Travel(p, [MakeCommand(Down, n), MakeCommand(Up, n)]) == p
  {
    TravelPair(p, MakeCommand(Down, n), MakeCommand(Up, n));
  }

  // ------------------------------------------------------------------- Submarine

  /** The position class a submarine is created with. */
  datatype Strategy = PlainStrategy | AimStrategy

  /** `Submarine`: it only holds its position. */
  datatype Submarine = Submarine(position: Position)

  /** `Submarine.create`: a submarine at the surface with no aim. */
  function Create(strategy: Strategy): (s: Submarine)
    ensures s.position.Plain? <==> strategy == PlainStrategy
    ensures s.position.horizontal == 0 && s.position.depth == 0 && Product(s.position) == 0
    ensures s.position.WithAim? ==> s.position.aim == 0
  {
    match strategy
    case PlainStrategy => Submarine(Plain(0, 0))
    case AimStrategy => Submarine(WithAim(0, 0, 0))
  }

  /** `Submarine.move`. */
  function MoveSubmarine(s: Submarine, c: Command): (r: Submarine)
    ensures r.position == Travel(s.position, [c])
  {
    Submarine(Move(s.position, c))
  }

  /** `Submarine.move_multiple`: one `move` per command, in order. */
  method MoveMultiple(s: Submarine, cmds: seq<Command>) returns (r: Submarine)
    ensures r.position == Travel(s.position, cmds)
    ensures |cmds| == 0 ==> r == s
    ensures r.position.Plain? == s.position.Plain?
  {
    r := s;
    var i := 0;
    while i < |cmds|
      invariant 0 <= i <= |cmds|
      invariant Travel(r.position, cmds[i..]) == Travel(s.position, cmds)
    {
      assert cmds[i..][1..] == cmds[i + 1..];
      r := MoveSubmarine(r, cmds[i]);
      i := i + 1;
    }
  }

  // -------------------------------------------------------------------- examples

  /** The example course of the tests: forward 5, down 5, forward 8, up 3, down 8,
      forward 2. */
  function ExampleCourse(): seq<Command> {
    [MakeCommand(Forward, 5), MakeCommand(Down, 5), MakeCommand(Forward, 8),
     MakeCommand(Up, 3), MakeCommand(Down, 8), MakeCommand(Forward, 2)]
  }

  /** Plain: horizontal 15, depth 10, product 150. */
  lemma PlainExample()
    ensures Travel(Plain(0, 0), ExampleCourse()) == Plain(15, 10)
    ensures Product(Travel(Plain(0, 0), ExampleCourse())) == 150
  {
    var course := ExampleCourse();
    assert course == [Command(Forward, 5, 0), Command(Down, 0, 5), Command(Forward, 8, 0),
                      Command(Up, 0, -3), Command(Down, 0, 8), Command(Forward, 2, 0)];
    PlainTravelIsSum(0, 0, course);
  }

  /** With aim: horizontal 15, depth 60, aim 10, product 900. */
  lemma AimExample()
    ensures Travel(WithAim(0, 0, 0), ExampleCourse()) == WithAim(15, 60, 10)
    ensures Product(Travel(WithAim(0, 0, 0), ExampleCourse())) == 900
  {
    var course := ExampleCourse();
    TravelAppend(WithAim(0, 0, 0), course[..3], course[3..]);
    assert course[..3] == [MakeCommand(Forward, 5), MakeCommand(Down, 5), MakeCommand(Forward, 8)];
    assert course[3..] == [MakeCommand(Up, 3), MakeCommand(Down, 8), MakeCommand(Forward, 2)];
    assert Travel(WithAim(0, 0, 0), course[..3]) == WithAim(13, 40, 5) by {
      AimScenario();
    }
    assert Travel(WithAim(13, 40, 5), course[3..]) == WithAim(15, 60, 10) by {
      AimScenario();
    }
  }

  /** The aimed scenario of the tests, one command at a time. */
  lemma AimScenario()
    ensures Move(WithAim(0, 0, 0), MakeCommand(Forward, 5)) == WithAim(5, 0, 0)
    ensures Move(WithAim(5, 0, 0), MakeCommand(Down, 5)) == WithAim(5, 0, 5)
    ensures Move(WithAim(5, 0, 5), MakeCommand(Forward, 8)) == WithAim(13, 40, 5)
    ensures Move(WithAim(13, 40, 5), MakeCommand(Up, 3)) == WithAim(13, 40, 2)
    ensures Move(WithAim(13, 40, 2), MakeCommand(Down, 8)) == WithAim(13, 40, 10)
    ensures Move(WithAim(13, 40, 10), MakeCommand(Forward, 2)) == WithAim(15, 60, 10)
    ensures Travel(WithAim(0, 0, 0), [MakeCommand(Forward, 5), MakeCommand(Down, 5), MakeCommand(Forward, 8)]) == WithAim(13, 40, 5)
    ensures Travel(WithAim(13, 40, 5), [MakeCommand(Up, 3), MakeCommand(Down, 8), MakeCommand(Forward, 2)]) == WithAim(15, 60, 10)
  {
  }

  /** The position examples of the tests. */
  lemma PositionExamples()
    ensures Plus(Plain(1, 1), Plain(2, 3)) == Ok(Plain(3, 4))
    ensures Plus(Plain(1, 0), Plain(-1, 0)) == Ok(Plain(0, 0))
    ensures Move(Plain(0, 0), MakeCommand(Up, 1)) == Plain(0, -1)
    ensures Move(Plain(0, 0), MakeCommand(Down, 1)) == Plain(0, 1)
    ensures Move(WithAim(0, 0, 0), MakeCommand(Down, 1)).aim == 1
    ensures Move(WithAim(0, 0, 0), MakeCommand(Up, 1)).aim == -1
    ensures MoveSubmarine(Create(PlainStrategy), MakeCommand(Forward, 1)).position == Plain(1, 0)
  {
  }
}

=== FILE: rates.dfy ===
/** The rate calculator of the binary diagnostic (day03/__main__.py, `Rate`, `GammaRate`,
    `EpsilonRate`): per-column counts of '1' and '0' over the rows, and the majority
    (gamma) and minority (epsilon) codes built from them. */
module Rates {
  import opened Results
  import opened Bits

  /** What reading column `pos` of `row` raises, or None when the cell is a bit. */
  function CellError(row: string, pos: nat): Option<DiagnosticError> {
    if pos >= |row| then Some(IndexOutOfRange)
    else if IsBit(row[pos]) then None
    else Some(CannotParse(row[pos]))
  }

  /** Every row has a bit at column `pos`. */
  predicate ValidColumn(rows: seq<string>, pos: nat) {
    forall i :: 0 <= i < |rows| ==> pos < |rows[i]| && IsBit(rows[i][pos])
  }

  /** Every row has a bit at every column below `width`. */
  predicate ValidGrid(rows: seq<string>, width: nat) {
    forall pos :: 0 <= pos < width ==> ValidColumn(rows, pos)
  }

  /** The error raised while scanning column `pos` row by row: the one of the first
      row whose cell is not a bit. */
  function ColumnError(rows: seq<string>, pos: nat): (r: Option<DiagnosticError>)
    ensures r.None? <==> ValidColumn(rows, pos)
  {
    if |rows| == 0 then None
    else if CellError(rows[0], pos).Some? then CellError(rows[0], pos)
    else ColumnError(rows[1..], pos)
  }

  /** Scanning the rows from `k` on meets row `k` first. */
  lemma ColumnErrorOfSuffix(rows: seq<string>, pos: nat, k: nat)
    requires k < |rows|
    ensures ColumnError(rows[k..], pos)
              == if CellError(rows[k], pos).Some? then CellError(rows[k], pos) else ColumnError(rows[k + 1..], pos)
  {
    assert rows[k..][1..] == rows[k + 1..];
  }

  /** The error of a column is that of its first offending row: every row before it
      holds a bit at that column. */
  lemma {:induction false} ColumnErrorIsFirstBadCell(rows: seq<string>, pos: nat)
    requires ColumnError(rows, pos).Some?
    ensures exists i :: 0 <= i < |rows| && CellError(rows[i], pos) == ColumnError(rows, pos)
                        && forall j :: 0 <= j < i ==> CellError(rows[j], pos).None?
  {
    if CellError(rows[0], pos).None? {
      ColumnErrorIsFirstBadCell(rows[1..], pos);
      var i :| 0 <= i < |rows[1..]| && CellError(rows[1..][i], pos) == ColumnError(rows[1..], pos)
               && forall j :: 0 <= j < i ==> CellError(rows[1..][j], pos).None?;
      assert CellError(rows[i + 1], pos) == ColumnError(rows, pos);
      assert forall j :: 0 <= j < i + 1 ==> CellError(rows[j], pos).None? by {
        forall j | 0 <= j < i + 1 ensures CellError(rows[j], pos).None? {
          if j > 0 {
            assert rows[j] == rows[1..][j - 1];
          }
        }
      }
    }
  }

  /** The error raised while scanning columns `pos`, `pos + 1`, ... below `width` in turn. */
  function GridError(rows: seq<string>, pos: nat, width: nat): (r: Option<DiagnosticError>)
    decreases width - pos
    ensures r.None? <==> forall p :: pos <= p < width ==> ValidColumn(rows, p)
    ensures r.Some? ==> exists p :: pos <= p < width && ColumnError(rows, p) == r
                           && forall q :: pos <= q < p ==> ValidColumn(rows, q)
  {
    if pos >= width then None
    else if ColumnError(rows, pos).Some? then ColumnError(rows, pos)
    else GridError(rows, pos + 1, width)
  }

  /** Number of rows holding symbol `b` at column `pos`. */
  function Count(rows: seq<string>, pos: nat, b: char): nat {
    if |rows| == 0 then 0
    else (if pos < |rows[0]| && rows[0][pos] == b then 1 else 0) + Count(rows[1..], pos, b)
  }

  /** Counting from row `k` on meets row `k` first. */
  lemma CountOfSuffix(rows: seq<string>, pos: nat, b: char, k: nat)
    requires k < |rows|
    ensures Count(rows[k..], pos, b)
              == (if pos < |rows[k]| && rows[k][pos] == b then 1 else 0) + Count(rows[k + 1..], pos, b)
  {
    assert rows[k..][1..] == rows[k + 1..];
  }

  /** Appending a row adds its own contribution to the count. */
  lemma {:induction false} CountSnoc(rows: seq<string>, x: string, pos: nat, b: char)
    ensures Count(rows + [x], pos, b) == Count(rows, pos, b) + (if pos < |x| && x[pos] == b then 1 else 0)
  {
    if |rows| == 0 {
      assert ([] + [x])[1..] == [];
    } else {
      assert (rows + [x])[1..] == rows[1..] + [x];
      CountSnoc(rows[1..], x, pos, b);
    }
  }

  /** Counting is additive over a split of the rows. */
  lemma {:induction false} CountAppend(rows: seq<string>, more: seq<string>, pos: nat, b: char)
    ensures Count(rows + more, pos, b) == Count(rows, pos, b) + Count(more, pos, b)
  {
    if |rows| == 0 {
      assert rows + more == more;
    } else {
      assert (rows + more)[1..] == rows[1..] + more;
      CountAppend(rows[1..], more, pos, b);
    }
  }

  /** A non-empty sequence is its front followed by its last element. */
  lemma InitAndLast<T>(s: seq<T>)
    requires |s| > 0
    ensures s[..|s| - 1] + [s[|s| - 1]] == s
  {
    var t := s[..|s| - 1] + [s[|s| - 1]];
    forall i | 0 <= i < |s| ensures t[i] == s[i] {
      if i < |s| - 1 {
        assert t[i] == s[..|s| - 1][i];
      }
    }
  }

  /** In a column of bits every row is counted exactly once. */
  lemma {:induction false} CountsCover(rows: seq<string>, pos: nat)
    requires ValidColumn(rows, pos)
    ensures Count(rows, pos, '1') + Count(rows, pos, '0') == |rows|
  {
    if |rows| > 0 {
      assert ValidColumn(rows[1..], pos) by {
        forall i | 0 <= i < |rows[1..]| ensures pos < |rows[1..][i]| && IsBit(rows[1..][i][pos]) {
          assert rows[1..][i] == rows[i + 1];
        }
      }
      CountsCover(rows[1..], pos);
    }
  }

  datatype ColumnCount = ColumnCount(ones: nat, zeros: nat)

  /** The counts of one column. */
  function CountColumn(rows: seq<string>, pos: nat): ColumnCount {
    ColumnCount(Count(rows, pos, '1'), Count(rows, pos, '0'))
  }

  /** The frequency table of the first `width` columns, or the first error met when the
      columns are scanned one after another. */
  function Frequencies(rows: seq<string>, width: nat): (r: Result<seq<ColumnCount>, DiagnosticError>)
    ensures r.Ok? <==> ValidGrid(rows, width)
    ensures r.Ok? ==> |r.value| == width
                      && forall p :: 0 <= p < width ==> r.value[p].ones + r.value[p].zeros == |rows|
  {
    match GridError(rows, 0, width)
    case Some(e) => Err(e)
    case None =>
      forall p | 0 <= p < width {
        CountsCover(rows, p);
      }
      Ok(seq(width, p requires 0 <= p < width => CountColumn(rows, p)))
  }

  /** The counts of column `pos`, or the error of its first offending row. */
  function ColumnResult(rows: seq<string>, pos: nat): Result<ColumnCount, DiagnosticError> {
    match ColumnError(rows, pos)
    case Some(e) => Err(e)
    case None => Ok(CountColumn(rows, pos))
  }

  /** The inner loop of `Rate._get_frequencies`: one pass over the rows at column `pos`,
      raising at the first cell that is not a bit. */
  method ScanColumn(rows: seq<string>, pos: nat) returns (r: Result<ColumnCount, DiagnosticError>)
    ensures r == ColumnResult(rows, pos)
  {
    var ones, zeros := 0, 0;
    var k := 0;
    while k < |rows|
      invariant k <= |rows|
      invariant ColumnError(rows, pos) == ColumnError(rows[k..], pos)
      invariant ones + Count(rows[k..], pos, '1') == Count(rows, pos, '1')
      invariant zeros + Count(rows[k..], pos, '0') == Count(rows, pos, '0')
    {
      var row := rows[k];
      CountOfSuffix(rows, pos, '1', k);
      CountOfSuffix(rows, pos, '0', k);
      ColumnErrorOfSuffix(rows, pos, k);
      if pos < |row| && row[pos] == '1' {
        ones := ones + 1;
      } else if pos < |row| && row[pos] == '0' {
        zeros := zeros + 1;
      } else {
        return Err(CellError(row, pos).value);
      }
      k := k + 1;
    }
    assert rows[k..] == [];
    r := Ok(ColumnCount(ones, zeros));
  }

  /** `Rate._get_frequencies`: the columns are scanned in order and the first error
      aborts the whole table. */
  method GetFrequencies(rows: seq<string>, width: nat) returns (r: Result<seq<ColumnCount>, DiagnosticError>)
    ensures r == Frequencies(rows, width)
  {
    var counts: seq<ColumnCount> := [];
    var pos := 0;
    while pos < width
      invariant pos <= width
      invariant GridError(rows, 0, width) == GridError(rows, pos, width)
      invariant |counts| == pos
      invariant forall p :: 0 <= p < pos ==> counts[p] == CountColumn(rows, p)
    {
      var column := ScanColumn(rows, pos);
      if column.Err? {
        FrequenciesOfBadColumn(rows, pos, width);
        return Err(column.error);
      }
      assert GridError(rows, pos, width) == GridError(rows, pos + 1, width);
      assert column.value == CountColumn(rows, pos);
      var counts' := counts + [column.value];
      forall p | 0 <= p < pos + 1
        ensures counts'[p] == CountColumn(rows, p)
      {
        if p < pos {
          assert counts'[p] == counts[p];
        }
      }
      counts, pos := counts', pos + 1;
    }
    FrequenciesOfCounts(rows, width, counts);
    r := Ok(counts);
  }

  /** Once the columns before `pos` are good, a bad column `pos` decides the table's error. */
  lemma FrequenciesOfBadColumn(rows: seq<string>, pos: nat, width: nat)
    requires pos < width && GridError(rows, 0, width) == GridError(rows, pos, width)
    requires ColumnError(rows, pos).Some?
    ensures Frequencies(rows, width) == Err(ColumnError(rows, pos).value)
  {
  }

  /** A grid without errors has the table of its column counts. */
  lemma FrequenciesOfCounts(rows: seq<string>, width: nat, counts: seq<ColumnCount>)
    requires GridError(rows, 0, width).None?
    requires |counts| == width && forall p :: 0 <= p < width ==> counts[p] == CountColumn(rows, p)
    ensures Frequencies(rows, width) == Ok(counts)
  {
    assert Frequencies(rows, width).value == counts;
  }

  /** Which code a rate builds: `GammaRate` (majority) or `EpsilonRate` (minority). */
  datatype RateKind = Gamma | Epsilon

  /** `_calculate_rate` at one column: the comparison is "ones > zeros", so a tie gives
      '0' for gamma and '1' for epsilon. */
  function RateBit(kind: RateKind, c: ColumnCount): (b: char)
    ensures IsBit(b)
    ensures kind == Gamma ==> (b == '1' <==> c.ones > c.zeros)
    ensures kind == Epsilon ==> (b == '0' <==> c.ones > c.zeros)
    ensures c.ones == c.zeros ==> (b == '1' <==> kind == Epsilon)
  {
    match kind
    case Gamma => if c.ones > c.zeros then '1' else '0'
    case Epsilon => if c.ones > c.zeros then '0' else '1'
  }

  /** The rate string of a `Rate` built from `rows`; an empty input gives "". The width
      is that of the first row, and construction raises on the first bad cell. */
  function Rate(kind: RateKind, rows: seq<string>): (r: Result<string, DiagnosticError>)
    ensures |rows| == 0 ==> r == Ok("")
    ensures |rows| > 0 ==> (r.Ok? <==> ValidGrid(rows, |rows[0]|))
    ensures r.Ok? && |rows| > 0 ==>
              |r.value| == |rows[0]| && IsBinary(r.value)
              && forall p :: 0 <= p < |r.value| ==>
                   (r.value[p] == '1' <==> ((kind == Gamma) == (2 * Count(rows, p, '1') > |rows|)))
  {
    if |rows| == 0 then Ok("")
    else
      match Frequencies(rows, |rows[0]|)
      case Err(e) => Err(e)
      case Ok(freqs) => Ok(seq(|freqs|, p requires 0 <= p < |freqs| => RateBit(kind, freqs[p])))
  }

  /** `Rate.as_decimal`: 0 for an empty input, otherwise `int(rate, 2)`, which raises for
      the empty rate of rows of width 0. */
  function RateDecimal(kind: RateKind, rows: seq<string>): (r: Result<int, DiagnosticError>)
    ensures |rows| == 0 ==> r == Ok(0)
    ensures |rows| > 0 && |rows[0]| == 0 ==> r == Err(InvalidLiteral(""))
    ensures |rows| > 0 && |rows[0]| > 0 ==> (r.Ok? <==> ValidGrid(rows, |rows[0]|))
    ensures r.Ok? && |rows| > 0 ==>
              0 <= r.value < Pow2(|rows[0]|) && ToBinary(r.value, |rows[0]|) == Rate(kind, rows).value
  {
    if |rows| == 0 then Ok(0)
    else
      match Rate(kind, rows)
      case Err(e) => Err(e)
      case Ok(rate) => ToBinaryOfValue(rate); ParseBinary(rate)
  }

  /** Epsilon is the bitwise complement of gamma at every column, ties included, and the
      two raise the same error on the same input. */
  lemma EpsilonIsComplementOfGamma(rows: seq<string>)
    ensures Rate(Gamma, rows).Ok? <==> Rate(Epsilon, rows).Ok?
    ensures Rate(Gamma, rows).Err? ==> Rate(Epsilon, rows) == Rate(Gamma, rows)
    ensures Rate(Gamma, rows).Ok? ==> Rate(Epsilon, rows).value == Complement(Rate(Gamma, rows).value)
  {
  }

  /** The two codes read as numbers add up to the all-ones number of the row width, so
      their product (the power consumption) is fixed by gamma alone. */
  lemma GammaPlusEpsilon(rows: seq<string>)
    requires RateDecimal(Gamma, rows).Ok?
    ensures RateDecimal(Epsilon, rows).Ok?
    ensures |rows| > 0 ==> RateDecimal(Gamma, rows).value + RateDecimal(Epsilon, rows).value == Pow2(|rows[0]|) - 1
  {
    EpsilonIsComplementOfGamma(rows);
    if |rows| > 0 {
      var g := Rate(Gamma, rows).value;
      ValuePlusComplement(g);
    }
  }
}

=== FILE: ratings.dfy ===
/** The rating filter of the binary diagnostic (day03/__main__.py, `Rating`,
    `OxygenGeneratorRating`, `Co2ScrubberRating`): the candidates are partitioned by
    their bit at column 0, 1, 2, ... and one side is kept each time, until a column
    leaves exactly one candidate. */
module Ratings {
  import opened Results
  import opened Literals
  import opened Bits
  import opened Rates

  /** Which side a rating keeps: the oxygen rating's winner is the '1' side, the CO2
      rating's winner is the '0' side. */
  datatype Policy = Oxygen | Co2

  /** The rows, in input order, holding symbol `b` at column `pos`. */
  function WithBit(rows: seq<string>, pos: nat, b: char): (r: seq<string>)
    ensures |r| == Count(rows, pos, b)
    ensures forall x :: x in r ==> x in rows && pos < |x| && x[pos] == b
  {
    if |rows| == 0 then []
    else
      var init, last := rows[..|rows| - 1], rows[|rows| - 1];
      InitAndLast(rows);
      CountSnoc(init, last, pos, b);
      WithBit(init, pos, b) + (if pos < |last| && last[pos] == b then [last] else [])
  }

  /** Appending a row to the input appends it to the side of its symbol. */
  lemma WithBitSnoc(rows: seq<string>, pos: nat, b: char, x: string)
    ensures WithBit(rows + [x], pos, b) == WithBit(rows, pos, b) + (if pos < |x| && x[pos] == b then [x] else [])
  {
    assert (rows + [x])[..|rows|] == rows;
  }

  /** Extending a prefix of the rows by one row extends the side of that row's symbol. */
  lemma WithBitOfLonger(rows: seq<string>, pos: nat, k: nat, b: char)
    requires k < |rows|
    ensures WithBit(rows[..k + 1], pos, b)
              == WithBit(rows[..k], pos, b) + (if pos < |rows[k]| && rows[k][pos] == b then [rows[k]] else [])
  {
    assert rows[..k + 1] == rows[..k] + [rows[k]];
    WithBitSnoc(rows[..k], pos, b, rows[k]);
  }

  /** `_get_frequencies_at` as a value: the '1' side and the '0' side of the candidates at
      column `pos`, or the error of the first candidate without a bit there. */
  function Partition(cands: seq<string>, pos: nat): (r: Result<(seq<string>, seq<string>), DiagnosticError>)
    ensures r.Ok? <==> ValidColumn(cands, pos)
    ensures r.Err? ==> ColumnError(cands, pos) == Some(r.error)
    ensures r.Ok? ==> |r.value.0| + |r.value.1| == |cands|
                      && (forall x :: x in r.value.0 ==> x in cands && x[pos] == '1')
                      && (forall x :: x in r.value.1 ==> x in cands && x[pos] == '0')
  {
    match ColumnError(cands, pos)
    case Some(e) => Err(e)
    case None =>
      CountsCover(cands, pos);
      Ok((WithBit(cands, pos, '1'), WithBit(cands, pos, '0')))
  }

  /** `Rating._get_frequencies_at`: one pass over the candidates that appends each to the
      side of its bit and raises at the first symbol that is not a bit. */
  method GetFrequenciesAt(cands: seq<string>, pos: nat) returns (r: Result<(seq<string>, seq<string>), DiagnosticError>)
    ensures r == Partition(cands, pos)
  {
    var withOne: seq<string> := [];
    var withZero: seq<string> := [];
    var k := 0;
    while k < |cands|
      invariant k <= |cands|
      invariant ColumnError(cands, pos) == ColumnError(cands[k..], pos)
      invariant withOne == WithBit(cands[..k], pos, '1') && withZero == WithBit(cands[..k], pos, '0')
    {
      var item := cands[k];
      WithBitOfLonger(cands, pos, k, '1');
      WithBitOfLonger(cands, pos, k, '0');
      ColumnErrorOfSuffix(cands, pos, k);
      if pos < |item| && item[pos] == '1' {
        withOne := withOne + [item];
      } else if pos < |item| && item[pos] == '0' {
        withZero := withZero + [item];
      } else {
        return Err(CellError(item, pos).value);
      }
      k := k + 1;
    }
    assert cands[..k] == cands;
    r := Ok((withOne, withZero));
  }

  /** The bit whose side survives, given the sizes of the two sides: the source keeps
      the winner when the '1' side is at least as large and the loser otherwise. So
      oxygen keeps the more common bit and CO2 the less common one, '1' and '0'
      respectively on a tie. */
  function KeptBit(policy: Policy, ones: nat, zeros: nat): (b: char)
    ensures IsBit(b)
    ensures var kept := if b == '1' then ones else zeros;
            var dropped := if b == '1' then zeros else ones;
            (policy == Oxygen ==> kept >= dropped) && (policy == Co2 ==> kept <= dropped)
    ensures ones == zeros ==> (b == '1' <==> policy == Oxygen)
  {
    var onesWin := ones >= zeros;
    match policy
    case Oxygen => if onesWin then '1' else '0'
    case Co2 => if onesWin then '0' else '1'
  }

  /** At every column the two policies keep opposite sides. */
  lemma PoliciesKeepOppositeSides(ones: nat, zeros: nat)
    ensures KeptBit(Oxygen, ones, zeros) != KeptBit(Co2, ones, zeros)
  {
  }

  /** One round of the filter at column `pos`. */
  function FilterStep(policy: Policy, cands: seq<string>, pos: nat): (r: Result<seq<string>, DiagnosticError>)
    ensures r.Ok? <==> ValidColumn(cands, pos)
    ensures r.Err? ==> ColumnError(cands, pos) == Some(r.error)
    ensures r.Ok? ==> r.value == WithBit(cands, pos, KeptBit(policy, Count(cands, pos, '1'), Count(cands, pos, '0')))
    ensures r.Ok? ==> forall x :: x in r.value ==> x in cands
  {
    match Partition(cands, pos)
    case Err(e) => Err(e)
    case Ok(sides) => if KeptBit(policy, |sides.0|, |sides.1|) == '1' then Ok(sides.0) else Ok(sides.1)
  }

  /** Oxygen keeps at least half of the candidates, so it never empties a non-empty set;
      CO2 keeps at most half, and empties the set exactly when every candidate has the
      same bit at the column (a lone candidate included). */
  lemma FilterStepSize(policy: Policy, cands: seq<string>, pos: nat)
    requires FilterStep(policy, cands, pos).Ok?
    ensures var next := FilterStep(policy, cands, pos).value;
            (policy == Oxygen ==> 2 * |next| >= |cands|)
            && (policy == Co2 ==> 2 * |next| <= |cands|)
            && (policy == Co2 && |cands| > 0 ==>
                  (|next| == 0 <==> WithBit(cands, pos, '1') == [] || WithBit(cands, pos, '0') == []))
  {
    CountsCover(cands, pos);
  }

  /** The candidates left after `k` rounds at columns `pos`, `pos + 1`, ..., with no
      early stop: the reference the filter's stopping rule is stated against. */
  function Narrow(policy: Policy, cands: seq<string>, pos: nat, k: nat): Result<seq<string>, DiagnosticError>
    decreases k
  {
    if k == 0 then Ok(cands)
    else
      match FilterStep(policy, cands, pos)
      case Err(e) => Err(e)
      case Ok(next) => Narrow(policy, next, pos + 1, k - 1)
  }

  /** Where the filter stopped: the rating (None when no column left exactly one
      candidate), the candidate list the object keeps in `_values`, and the number of
      columns examined. */
  datatype RatingState = RatingState(rating: Option<string>, remaining: seq<string>, examined: nat)

  /** `Rating._calculate_rating` from column `pos` on: filter, and return as soon as one
      candidate is left; after column `width - 1` give up with no rating. */
  function FilterFrom(policy: Policy, cands: seq<string>, pos: nat, width: nat): (r: Result<RatingState, DiagnosticError>)
    decreases width - pos
    ensures r.Ok? && r.value.rating.Some? ==>
              r.value.remaining == [r.value.rating.value] && r.value.rating.value in cands
  {
    if pos >= width then Ok(RatingState(None, cands, 0))
    else
      match FilterStep(policy, cands, pos)
      case Err(e) => Err(e)
      case Ok(next) =>
        if |next| == 1 then Ok(RatingState(Some(next[0]), next, 1))
        else
          match FilterFrom(policy, next, pos + 1, width)
          case Err(e) => Err(e)
          case Ok(st) => Ok(RatingState(st.rating, st.remaining, st.examined + 1))
  }

  /** A round that does not settle the rating hands over to the next column, which
      adds one to the columns examined. */
  lemma FilterFromUnfold(policy: Policy, cands: seq<string>, pos: nat, width: nat, rest: RatingState)
    requires pos < width && FilterStep(policy, cands, pos).Ok? && |FilterStep(policy, cands, pos).value| != 1
    requires FilterFrom(policy, FilterStep(policy, cands, pos).value, pos + 1, width) == Ok(rest)
    ensures FilterFrom(policy, cands, pos, width) == Ok(RatingState(rest.rating, rest.remaining, rest.examined + 1))
  {
    var next := FilterStep(policy, cands, pos).value;
    assert FilterStep(policy, cands, pos) == Ok(next);
  }

  /** A round that leaves one candidate settles the rating. */
  lemma FilterFromSettles(policy: Policy, cands: seq<string>, pos: nat, width: nat)
    requires pos < width && FilterStep(policy, cands, pos).Ok? && |FilterStep(policy, cands, pos).value| == 1
    ensures var next := FilterStep(policy, cands, pos).value;
            FilterFrom(policy, cands, pos, width) == Ok(RatingState(Some(next[0]), next, 1))
  {
  }

  /** The filter examines at most the columns from `pos` to `width - 1`, all of them
      when it finds no rating, and it reports a rating exactly when a column it examined
      left one candidate. */
  lemma {:induction false} FilterFromColumns(policy: Policy, cands: seq<string>, pos: nat, width: nat, st: RatingState)
    requires FilterFrom(policy, cands, pos, width) == Ok(st)
    ensures pos < width ==> pos + st.examined <= width
    ensures pos >= width ==> st.examined == 0
    ensures st.rating.None? ==> pos + st.examined >= width
    ensures st.rating.Some? <==> st.examined >= 1 && |st.remaining| == 1
    decreases width - pos
  {
    if pos < width {
      var next := FilterStep(policy, cands, pos).value;
      if |next| != 1 {
        var rest := FilterFrom(policy, next, pos + 1, width).value;
        FilterFromUnfold(policy, cands, pos, width, rest);
        FilterFromColumns(policy, next, pos + 1, width, rest);
      }
    }
  }

  /** The oxygen filter never loses every candidate. */
  lemma {:induction false} OxygenKeepsACandidate(cands: seq<string>, pos: nat, width: nat, st: RatingState)
    requires FilterFrom(Oxygen, cands, pos, width) == Ok(st) && |cands| > 0
    ensures |st.remaining| > 0
    decreases width - pos
  {
    if pos < width {
      var next := FilterStep(Oxygen, cands, pos).value;
      FilterStepSize(Oxygen, cands, pos);
      if |next| != 1 {
        var rest := FilterFrom(Oxygen, next, pos + 1, width).value;
        FilterFromUnfold(Oxygen, cands, pos, width, rest);
        OxygenKeepsACandidate(next, pos + 1, width, rest);
      }
    }
  }

  /** A column every candidate has a bit in stays so for any sub-list of them. */
  lemma ValidColumnOfSublist(sub: seq<string>, cands: seq<string>, pos: nat)
    requires ValidColumn(cands, pos)
    requires forall x :: x in sub ==> x in cands
    ensures ValidColumn(sub, pos)
  {
    forall i | 0 <= i < |sub|
      ensures pos < |sub[i]| && IsBit(sub[i][pos])
    {
      assert sub[i] in cands;
    }
  }

  /** Every row has a bit at every column from `pos` to `width - 1`. */
  predicate ValidFrom(rows: seq<string>, pos: nat, width: nat) {
    forall p :: pos <= p < width ==> ValidColumn(rows, p)
  }

  /** Candidates kept from well-formed rows stay well-formed. */
  lemma ValidFromOfSublist(sub: seq<string>, cands: seq<string>, pos: nat, width: nat)
    requires ValidFrom(cands, pos, width)
    requires forall x :: x in sub ==> x in cands
    ensures ValidFrom(sub, pos, width)
  {
    forall p | pos <= p < width
      ensures ValidColumn(sub, p)
    {
      ValidColumnOfSublist(sub, cands, p);
    }
  }

  /** The filter raises only on a malformed cell: with bits in every column it examines,
      it always reaches a verdict. */
  lemma {:induction false} FilterFromOfValidRows(policy: Policy, cands: seq<string>, pos: nat, width: nat)
    ensures ValidFrom(cands, pos, width) ==> FilterFrom(policy, cands, pos, width).Ok?
    decreases width - pos
  {
    if pos < width && ValidFrom(cands, pos, width) {
      assert ValidColumn(cands, pos);
      var next := FilterStep(policy, cands, pos).value;
      if |next| == 1 {
        FilterFromSettles(policy, cands, pos, width);
      } else {
        ValidFromOfSublist(next, cands, pos + 1, width);
        FilterFromOfValidRows(policy, next, pos + 1, width);
        var rest := FilterFrom(policy, next, pos + 1, width).value;
        FilterFromUnfold(policy, cands, pos, width, rest);
      }
    }
  }

  /** One round of `Narrow` is one `FilterStep`. */
  lemma NarrowUnfold(policy: Policy, cands: seq<string>, pos: nat, k: nat)
    requires k >= 1 && FilterStep(policy, cands, pos).Ok?
    ensures Narrow(policy, cands, pos, k) == Narrow(policy, FilterStep(policy, cands, pos).value, pos + 1, k - 1)
  {
  }

  /** `k + 1` rounds are one round followed by `k` more from the next column. */
  lemma NarrowStep(policy: Policy, cands: seq<string>, pos: nat, k: nat, next: seq<string>)
    requires FilterStep(policy, cands, pos) == Ok(next)
    ensures Narrow(policy, cands, pos, k + 1) == Narrow(policy, next, pos + 1, k)
  {
  }

  /** No round before the `n`-th left exactly one candidate. */
  predicate NoSingletonBefore(policy: Policy, cands: seq<string>, pos: nat, n: nat) {
    forall j :: 1 <= j < n ==> Narrow(policy, cands, pos, j).Ok? && |Narrow(policy, cands, pos, j).value| != 1
  }

  /** A round that leaves more or fewer than one candidate extends the run of rounds
      without a single survivor by one. */
  lemma NoSingletonBeforeStep(policy: Policy, cands: seq<string>, pos: nat, n: nat)
    requires FilterStep(policy, cands, pos).Ok? && |FilterStep(policy, cands, pos).value| != 1
    requires NoSingletonBefore(policy, FilterStep(policy, cands, pos).value, pos + 1, n)
    ensures NoSingletonBefore(policy, cands, pos, n + 1)
  {
    var next := FilterStep(policy, cands, pos).value;
    forall j | 1 <= j < n + 1
      ensures Narrow(policy, cands, pos, j).Ok? && |Narrow(policy, cands, pos, j).value| != 1
    {
      NarrowUnfold(policy, cands, pos, j);
      if j > 1 {
        assert 1 <= j - 1 < n;
      }
    }
  }

  /** The filter stops at the first column that leaves exactly one candidate: the
      candidates it keeps are those of `examined` uninterrupted rounds, and no earlier
      round left a single one. */
  lemma {:induction false} FilterFromStopsAtFirstSingleton(policy: Policy, cands: seq<string>, pos: nat, width: nat, st: RatingState)
    requires FilterFrom(policy, cands, pos, width) == Ok(st)
    ensures Narrow(policy, cands, pos, st.examined) == Ok(st.remaining)
    ensures NoSingletonBefore(policy, cands, pos, st.examined)
    decreases width - pos, 1
  {
    if pos >= width {
      assert st.examined == 0 && st.remaining == cands;
    } else if |FilterStep(policy, cands, pos).value| == 1 {
      StopsWhenSettled(policy, cands, pos, width, st);
    } else {
      StopsAfterContinuing(policy, cands, pos, width, st);
    }
  }

  /** A round that leaves one candidate is the first and only round examined. */
  lemma StopsWhenSettled(policy: Policy, cands: seq<string>, pos: nat, width: nat, st: RatingState)
    requires pos < width && FilterStep(policy, cands, pos).Ok? && |FilterStep(policy, cands, pos).value| == 1
    requires FilterFrom(policy, cands, pos, width) == Ok(st)
    ensures Narrow(policy, cands, pos, st.examined) == Ok(st.remaining)
    ensures NoSingletonBefore(policy, cands, pos, st.examined)
  {
    var next := FilterStep(policy, cands, pos).value;
    FilterFromSettles(policy, cands, pos, width);
    assert st.examined == 1 && st.remaining == next;
    NarrowStep(policy, cands, pos, 0, next);
  }

  /** A round that leaves several candidates, or none, adds one round to those the
      filter goes on to examine from the next column. */
  lemma {:induction false} StopsAfterContinuing(policy: Policy, cands: seq<string>, pos: nat, width: nat, st: RatingState)
    requires pos < width && FilterStep(policy, cands, pos).Ok? && |FilterStep(policy, cands, pos).value| != 1
    requires FilterFrom(policy, cands, pos, width) == Ok(st)
    ensures Narrow(policy, cands, pos, st.examined) == Ok(st.remaining)
    ensures NoSingletonBefore(policy, cands, pos, st.examined)
    decreases width - pos, 0
  {
    var next := FilterStep(policy, cands, pos).value;
    var rest := FilterFrom(policy, next, pos + 1, width).value;
    FilterFromUnfold(policy, cands, pos, width, rest);
    assert st.examined == rest.examined + 1 && st.remaining == rest.remaining;
    FilterFromStopsAtFirstSingleton(policy, next, pos + 1, width, rest);
    NarrowStep(policy, cands, pos, rest.examined, next);
    NoSingletonBeforeStep(policy, cands, pos, rest.examined);
  }

  /** The rows, in input order, that start with `prefix`. */
  function Matching(rows: seq<string>, prefix: string): (r: seq<string>)
    ensures forall x :: x in r ==> x in rows && prefix <= x
  {
    if |rows| == 0 then []
    else
      var last := rows[|rows| - 1];
      Matching(rows[..|rows| - 1], prefix) + (if prefix <= last then [last] else [])
  }

  lemma {:induction false} MatchingEmptyPrefix(rows: seq<string>)
    ensures Matching(rows, "") == rows
  {
    if |rows| > 0 {
      MatchingEmptyPrefix(rows[..|rows| - 1]);
    }
  }

  /** Keeping the rows with bit `b` at the next column refines the prefix by `b`. */
  lemma {:induction false} MatchingExtend(rows: seq<string>, prefix: string, b: char)
    ensures WithBit(Matching(rows, prefix), |prefix|, b) == Matching(rows, prefix + [b])
  {
    if |rows| > 0 {
      var init, last := rows[..|rows| - 1], rows[|rows| - 1];
      MatchingExtend(init, prefix, b);
      var m := Matching(init, prefix);
      PrefixExtend(prefix, b, last);
      if prefix <= last {
        assert Matching(rows, prefix) == m + [last];
        WithBitSnoc(m, |prefix|, b, last);
      } else {
        assert Matching(rows, prefix) == m;
      }
    }
  }

  /** A string starts with `prefix + [b]` exactly when it starts with `prefix` and has
      `b` right after it. */
  lemma PrefixExtend(prefix: string, b: char, s: string)
    ensures prefix + [b] <= s <==> prefix <= s && |prefix| < |s| && s[|prefix|] == b
  {
    if prefix <= s && |prefix| < |s| && s[|prefix|] == b {
      assert s[..|prefix| + 1] == prefix + [b];
    }
    if prefix + [b] <= s {
      assert s[..|prefix|] == (prefix + [b])[..|prefix|] == prefix;
    }
  }


  /** After any number of rounds the candidates are exactly the input rows, in input
      order, that start with some bit string of that many more columns: each round only
      narrows the prefix every survivor shares. */
  lemma {:induction false} NarrowIsMatching(policy: Policy, rows: seq<string>, prefix: string, k: nat)
    requires Narrow(policy, Matching(rows, prefix), |prefix|, k).Ok?
    ensures exists q: string :: |q| == |prefix| + k && prefix <= q
              && Narrow(policy, Matching(rows, prefix), |prefix|, k).value == Matching(rows, q)
    decreases k
  {
    if k == 0 {
      assert Narrow(policy, Matching(rows, prefix), |prefix|, k).value == Matching(rows, prefix);
    } else {
      var b := NarrowRoundIsMatching(policy, rows, prefix, k);
      var prefix' := prefix + [b];
      NarrowIsMatching(policy, rows, prefix', k - 1);
      var q: string :| |q| == |prefix'| + k - 1 && prefix' <= q
                        && Narrow(policy, Matching(rows, prefix'), |prefix'|, k - 1).value == Matching(rows, q);
      assert prefix <= q;
    }
  }

  /** One round keeps the candidates whose prefix grows by the kept bit `b`. */
  lemma NarrowRoundIsMatching(policy: Policy, rows: seq<string>, prefix: string, k: nat) returns (b: char)
    requires k >= 1 && Narrow(policy, Matching(rows, prefix), |prefix|, k).Ok?
    ensures Narrow(policy, Matching(rows, prefix), |prefix|, k)
              == Narrow(policy, Matching(rows, prefix + [b]), |prefix| + 1, k - 1)
  {
    var cands := Matching(rows, prefix);
    b := KeptBit(policy, Count(cands, |prefix|, '1'), Count(cands, |prefix|, '0'));
    MatchingExtend(rows, prefix, b);
    NarrowUnfold(policy, cands, |prefix|, k);
  }

  /** All rows have width `w` and no two are equal. */
  predicate DistinctRowsOfWidth(rows: seq<string>, w: nat) {
    && (forall i :: 0 <= i < |rows| ==> |rows[i]| == w)
    && (forall i, j :: 0 <= i < j < |rows| ==> rows[i] != rows[j])
  }

  /** A full-width prefix matches only a row equal to it. */
  lemma {:induction false} NoFullMatchWhenAbsent(rows: seq<string>, q: string)
    requires forall i :: 0 <= i < |rows| ==> |rows[i]| == |q|
    requires q !in rows
    ensures Matching(rows, q) == []
  {
    if |rows| > 0 {
      NoFullMatchWhenAbsent(rows[..|rows| - 1], q);
      assert rows[|rows| - 1] != q;
    }
  }

  /** Among distinct rows of one width, a prefix of that full width matches at most one. */
  lemma {:induction false} FullPrefixMatchesAtMostOne(rows: seq<string>, q: string)
    requires DistinctRowsOfWidth(rows, |q|)
    ensures |Matching(rows, q)| <= 1
  {
    if |rows| > 0 {
      var init, last := rows[..|rows| - 1], rows[|rows| - 1];
      assert DistinctRowsOfWidth(init, |q|);
      FullPrefixMatchesAtMostOne(init, q);
      if q <= last {
        assert last == q;
        assert q !in init by {
          forall i | 0 <= i < |init|
            ensures init[i] != q
          {
            assert init[i] == rows[i];
          }
        }
        NoFullMatchWhenAbsent(init, q);
      }
    }
  }

  /** `Rating.__init__` and `_calculate_rating`: an empty input gives no rating and an
      empty candidate list; otherwise the filter runs over the width of the first row. */
  function RatingOf(policy: Policy, values: seq<string>): (r: Result<RatingState, DiagnosticError>)
    ensures |values| > 0 && ValidGrid(values, |values[0]|) ==> r.Ok?
    ensures r.Ok? && r.value.rating.Some? ==>
              r.value.rating.value in values && r.value.remaining == [r.value.rating.value]
  {
    if |values| == 0 then Ok(RatingState(None, [], 0))
    else
      var width := |values[0]|;
      FilterFromOfValidRows(policy, values, 0, width);
      assert ValidGrid(values, width) ==> ValidFrom(values, 0, width);
      FilterFrom(policy, values, 0, width)
  }

  /** `Rating.as_decimal`: 0 when the candidate list left behind is empty, a failure
      when candidates are left but no rating was found (`int(None, 2)` raises), and
      otherwise `int(rating, 2)`, which accepts every binary literal Python does. */
  function RatingDecimal(policy: Policy, values: seq<string>): (r: Result<int, DiagnosticError>)
    ensures |values| == 0 ==> r == Ok(0)
    ensures RatingOf(policy, values).Ok? ==>
              var st := RatingOf(policy, values).value;
              (|st.remaining| == 0 ==> r == Ok(0))
              && (|st.remaining| > 0 && st.rating.None? ==> r == Err(NoRating))
              && (st.rating.Some? ==>
                    (r.Ok? <==> IsIntLiteral(Strip(IntSpace, st.rating.value), 2))
                    && (r.Err? ==> r.error == InvalidLiteral(st.rating.value))
                    && (IsBinary(st.rating.value) && |st.rating.value| > 0 ==> r == Ok(Value(st.rating.value))))
    ensures RatingOf(policy, values).Err? ==> r.Err? && r.error == RatingOf(policy, values).error
  {
    match RatingOf(policy, values)
    case Err(e) => Err(e)
    case Ok(st) =>
      if |st.remaining| == 0 then Ok(0)
      else
        match st.rating
        case None => Err(NoRating)
        case Some(s) => ParseBinary(s)
  }

  /** A rating starts with the bit its policy kept at column 0, never with a sign, so
      `as_decimal` is never negative. */
  lemma RatingDecimalIsNotNegative(policy: Policy, values: seq<string>)
    ensures RatingDecimal(policy, values).Ok? ==> RatingDecimal(policy, values).value >= 0
  {
    if RatingOf(policy, values).Ok? && RatingOf(policy, values).value.rating.Some? {
      var st := RatingOf(policy, values).value;
      RatingStartsWithKeptBit(policy, values);
      ParseBinaryOfBitFirst(st.rating.value);
    }
  }

  /** On distinct well-formed rows of a positive width, the oxygen filter always finds a
      rating, and that rating is one of the rows. */
  lemma OxygenRatingExists(values: seq<string>)
    requires |values| > 0 && |values[0]| > 0
    requires DistinctRowsOfWidth(values, |values[0]|)
    requires forall i :: 0 <= i < |values| ==> IsBinary(values[i])
    ensures RatingOf(Oxygen, values).Ok?
    ensures RatingOf(Oxygen, values).value.rating.Some?
    ensures RatingOf(Oxygen, values).value.rating.value in values
  {
    var width := |values[0]|;
    assert ValidGrid(values, width);
    var st := RatingOf(Oxygen, values).value;
    assert FilterFrom(Oxygen, values, 0, width) == Ok(st);
    if st.rating.None? {
      FilterFromColumns(Oxygen, values, 0, width, st);
      assert st.examined == width;
      OxygenKeepsACandidate(values, 0, width, st);
      FilterFromStopsAtFirstSingleton(Oxygen, values, 0, width, st);
      assert Narrow(Oxygen, values, 0, width) == Ok(st.remaining);
      MatchingEmptyPrefix(values);
      NarrowIsMatching(Oxygen, values, "", width);
      var q: string :| |q| == width && Narrow(Oxygen, values, 0, width).value == Matching(values, q);
      FullPrefixMatchesAtMostOne(values, q);
      assert false;
    }
  }

  /** The side a round keeps is the one of the policy's bit for the column's counts. */
  lemma FilterStepKeeps(policy: Policy, cands: seq<string>, pos: nat)
    requires FilterStep(policy, cands, pos).Ok?
    ensures FilterStep(policy, cands, pos).value
              == WithBit(cands, pos, KeptBit(policy, Count(cands, pos, '1'), Count(cands, pos, '0')))
  {
  }

  /** Every candidate left after some rounds is one of the candidates it started from. */
  lemma {:induction false} NarrowKeepsMembers(policy: Policy, cands: seq<string>, pos: nat, k: nat)
    requires Narrow(policy, cands, pos, k).Ok?
    ensures forall x :: x in Narrow(policy, cands, pos, k).value ==> x in cands
    decreases k
  {
    if k > 0 {
      var next := FilterStep(policy, cands, pos).value;
      NarrowUnfold(policy, cands, pos, k);
      NarrowKeepsMembers(policy, next, pos + 1, k - 1);
      MembersCarryBack(Narrow(policy, next, pos + 1, k - 1).value, next, cands);
    }
  }

  /** Membership carries back through a list whose members all come from `cands`. */
  lemma MembersCarryBack(rest: seq<string>, next: seq<string>, cands: seq<string>)
    requires forall x :: x in rest ==> x in next
    requires forall x :: x in next ==> x in cands
    ensures forall x :: x in rest ==> x in cands
  {
  }

  /** When both filters produce a rating, the two ratings differ in their first bit:
      at column 0 the two policies keep opposite sides. */
  lemma OxygenAndCo2RatingsDiffer(values: seq<string>)
    requires RatingOf(Oxygen, values).Ok? && RatingOf(Oxygen, values).value.rating.Some?
    requires RatingOf(Co2, values).Ok? && RatingOf(Co2, values).value.rating.Some?
    ensures RatingOf(Oxygen, values).value.rating.value[0] != RatingOf(Co2, values).value.rating.value[0]
  {
    PoliciesKeepOppositeSides(Count(values, 0, '1'), Count(values, 0, '0'));
    RatingStartsWithKeptBit(Oxygen, values);
    RatingStartsWithKeptBit(Co2, values);
  }

  /** A rating starts with the bit its policy kept at column 0. */
  lemma RatingStartsWithKeptBit(policy: Policy, values: seq<string>)
    requires RatingOf(policy, values).Ok? && RatingOf(policy, values).value.rating.Some?
    ensures var s := RatingOf(policy, values).value.rating.value;
            |s| > 0 && s[0] == KeptBit(policy, Count(values, 0, '1'), Count(values, 0, '0'))
  {
    var width := |values[0]|;
    var st := RatingOf(policy, values).value;
    assert RatingOf(policy, values) == FilterFrom(policy, values, 0, width);
    FilterFromStopsAtFirstSingleton(policy, values, 0, width, st);
    FilterFromColumns(policy, values, 0, width, st);
    assert st.rating.value in st.remaining;
    FirstBitOfSurvivor(policy, values, st.examined, st.rating.value);
  }

  /** A candidate that survives at least one round starts with the bit its policy keeps
      at column 0. */
  lemma FirstBitOfSurvivor(policy: Policy, values: seq<string>, k: nat, x: string)
    requires k >= 1 && Narrow(policy, values, 0, k).Ok?
    requires x in Narrow(policy, values, 0, k).value
    ensures |x| > 0 && x[0] == KeptBit(policy, Count(values, 0, '1'), Count(values, 0, '0'))
  {
    var next := FilterStep(policy, values, 0).value;
    FilterStepKeeps(policy, values, 0);
    NarrowUnfold(policy, values, 0, k);
    NarrowKeepsMembers(policy, next, 1, k - 1);
    assert x in next;
  }

  /** Once empty, the candidate list stays empty: each further round keeps an empty side. */
  lemma {:induction false} FilterFromOfEmpty(policy: Policy, pos: nat, width: nat)
    ensures FilterFrom(policy, [], pos, width) == Ok(RatingState(None, [], if pos < width then width - pos else 0))
    decreases width - pos
  {
    if pos < width {
      assert FilterStep(policy, [], pos) == Ok([]);
      FilterFromOfEmpty(policy, pos + 1, width);
    }
  }

  /** Every row has symbol `b` at column `pos`. */
  predicate UniformColumn(rows: seq<string>, pos: nat, b: char) {
    forall i :: 0 <= i < |rows| ==> pos < |rows[i]| && rows[i][pos] == b
  }

  /** All rows with bit `b` at `pos` are kept by `WithBit`. */
  lemma {:induction false} WithBitOfUniformColumn(rows: seq<string>, pos: nat, b: char)
    requires UniformColumn(rows, pos, b)
    ensures WithBit(rows, pos, b) == rows
  {
    if |rows| > 0 {
      var init, last := rows[..|rows| - 1], rows[|rows| - 1];
      assert UniformColumn(init, pos, b) by {
        forall i | 0 <= i < |init| ensures pos < |init[i]| && init[i][pos] == b {
          assert init[i] == rows[i];
        }
      }
      WithBitOfUniformColumn(init, pos, b);
      assert pos < |last| && last[pos] == b;
      InitAndLast(rows);
    }
  }

  /** When every row has `b` at the column, no row is kept for any other symbol. */
  lemma {:induction false} WithBitOfAbsentSymbol(rows: seq<string>, pos: nat, b: char, c: char)
    requires UniformColumn(rows, pos, b) && c != b
    ensures WithBit(rows, pos, c) == []
  {
    if |rows| > 0 {
      var init := rows[..|rows| - 1];
      assert UniformColumn(init, pos, b) by {
        forall i | 0 <= i < |init| ensures pos < |init[i]| && init[i][pos] == b {
          assert init[i] == rows[i];
        }
      }
      WithBitOfAbsentSymbol(init, pos, b, c);
    }
  }

  /** A column of one bit symbol is a column of bits. */
  lemma UniformColumnIsValid(rows: seq<string>, pos: nat, b: char)
    requires IsBit(b) && UniformColumn(rows, pos, b)
    ensures ValidColumn(rows, pos)
  {
    forall i | 0 <= i < |rows| ensures pos < |rows[i]| && IsBit(rows[i][pos]) {
      assert pos < |rows[i]| && rows[i][pos] == b;
    }
  }

  /** On a unanimous column the CO2 round keeps the empty minority side. */
  lemma Co2StepOfUniformColumn(cands: seq<string>, pos: nat, b: char)
    requires |cands| > 0 && IsBit(b) && UniformColumn(cands, pos, b)
    ensures FilterStep(Co2, cands, pos) == Ok([])
  {
    var other := if b == '1' then '0' else '1';
    UniformColumnIsValid(cands, pos, b);
    WithBitOfAbsentSymbol(cands, pos, b, other);
    CountsCover(cands, pos);
    assert Count(cands, pos, other) == 0;
    assert Count(cands, pos, b) == |cands|;
    var sides := Partition(cands, pos).value;
    assert |sides.0| + |sides.1| == |cands|;
  }

  /** Unlike the oxygen filter, the CO2 filter can lose every candidate: a column on
      which all remaining candidates agree leaves none, and the filter then reports no
      rating after examining the remaining columns. */
  lemma Co2EmptiesOnUnanimousColumn(cands: seq<string>, pos: nat, width: nat, b: char)
    requires pos < width && |cands| > 0 && IsBit(b) && UniformColumn(cands, pos, b)
    ensures FilterFrom(Co2, cands, pos, width) == Ok(RatingState(None, [], width - pos))
  {
    Co2StepOfUniformColumn(cands, pos, b);
    FilterFromOfEmpty(Co2, pos + 1, width);
    FilterFromUnfold(Co2, cands, pos, width, RatingState(None, [], width - pos - 1));
  }

  /** A single well-formed row is discarded by the CO2 filter at column 0, whichever its
      first bit: the source checks for a lone survivor only after filtering. No rating
      is produced and `as_decimal` reads 0. */
  lemma Co2DiscardsLoneRow(s: string)
    requires |s| > 0 && IsBinary(s)
    ensures RatingOf(Co2, [s]) == Ok(RatingState(None, [], |s|))
    ensures RatingDecimal(Co2, [s]) == Ok(0)
  {
    Co2EmptiesOnUnanimousColumn([s], 0, |s|, s[0]);
  }

  /** Distinct rows do not protect the CO2 filter: "00" and "01" agree at column 0. */
  lemma Co2EmptiesDistinctRows()
    ensures RatingOf(Co2, ["00", "01"]) == Ok(RatingState(None, [], 2))
    ensures RatingDecimal(Co2, ["00", "01"]) == Ok(0)
  {
    Co2EmptiesOnUnanimousColumn(["00", "01"], 0, 2, '0');
  }

  /** The oxygen filter keeps a lone row whose first symbol is a bit, which settles the
      rating at column 0; `as_decimal` is then `int(row, 2)`. */
  lemma OxygenSettlesLoneRow(s: string)
    requires |s| > 0 && IsBit(s[0])
    ensures RatingOf(Oxygen, [s]) == Ok(RatingState(Some(s), [s], 1))
    ensures RatingDecimal(Oxygen, [s]) == ParseBinary(s)
  {
    var b := s[0];
    var other := if b == '1' then '0' else '1';
    assert UniformColumn([s], 0, b);
    UniformColumnIsValid([s], 0, b);
    WithBitOfUniformColumn([s], 0, b);
    WithBitOfAbsentSymbol([s], 0, b, other);
    CountsCover([s], 0);
    assert FilterStep(Oxygen, [s], 0) == Ok([s]);
    FilterFromSettles(Oxygen, [s], 0, |s|);
  }

  /** The row is read by `int(row, 2)`, not as a bit string: "1_0" rates 2, "0b1"
      rates 1 and "1 " rates 1. */
  lemma OxygenReadsLiteralRowsExample()
    ensures RatingDecimal(Oxygen, ["1_0"]) == Ok(2)
    ensures RatingDecimal(Oxygen, ["0b1"]) == Ok(1)
    ensures RatingDecimal(Oxygen, ["1 "]) == Ok(1)
  {
    OxygenSettlesLoneRow("1_0");
    OxygenSettlesLoneRow("0b1");
    OxygenSettlesLoneRow("1 ");
    ParseBinaryUnderscoreExample();
    ParseBinaryPrefixExample();
    ParseBinaryPaddedExample();
  }

  /** A row ending in the separator U+001F settles the oxygen rating, but `int(row, 2)`
      does not strip the separator, so `as_decimal` raises. */
  lemma OxygenRejectsSeparatorRowExample()
    ensures RatingDecimal(Oxygen, ["1\U{1F}"]) == Err(InvalidLiteral("1\U{1F}"))
  {
    OxygenSettlesLoneRow("1\U{1F}");
    ParseBinarySeparatorExample();
  }

  /** Every candidate is the row `s`. */
  predicate AllEqual(cands: seq<string>, s: string) {
    forall i :: 0 <= i < |cands| ==> cands[i] == s
  }

  /** One oxygen round over copies of a bit string keeps every copy. */
  lemma OxygenRoundKeepsCopies(cands: seq<string>, s: string, pos: nat)
    requires AllEqual(cands, s) && pos < |s| && IsBinary(s)
    ensures FilterStep(Oxygen, cands, pos) == Ok(cands)
  {
    var b := s[pos];
    var other := if b == '1' then '0' else '1';
    assert UniformColumn(cands, pos, b) by {
      forall i | 0 <= i < |cands| ensures pos < |cands[i]| && cands[i][pos] == b {
        assert cands[i] == s;
      }
    }
    WithBitOfUniformColumn(cands, pos, b);
    WithBitOfAbsentSymbol(cands, pos, b, other);
    UniformColumnIsValid(cands, pos, b);
  }

  /** Copies of one row are never separated: from column `pos` on, the oxygen filter
      examines every remaining column and ends without a rating, every copy left. */
  lemma OxygenKeepsCopies(cands: seq<string>, s: string, pos: nat, width: nat)
    requires AllEqual(cands, s) && |cands| >= 2 && pos <= width <= |s| && IsBinary(s)
    ensures FilterFrom(Oxygen, cands, pos, width) == Ok(RatingState(None, cands, width - pos))
  {
    CopiesAreValid(cands, s, pos, width);
    FilterFromOfValidRows(Oxygen, cands, pos, width);
    var st := FilterFrom(Oxygen, cands, pos, width).value;
    FilterFromStopsAtFirstSingleton(Oxygen, cands, pos, width, st);
    FilterFromColumns(Oxygen, cands, pos, width, st);
    NarrowKeepsCopies(cands, s, pos, st.examined);
    assert st.remaining == cands;
    assert st == RatingState(None, cands, width - pos);
  }

  /** Copies of a bit string have a bit at each of its columns. */
  lemma CopiesAreValid(cands: seq<string>, s: string, pos: nat, width: nat)
    requires AllEqual(cands, s) && width <= |s| && IsBinary(s)
    ensures ValidFrom(cands, pos, width)
  {
    forall p, i | pos <= p < width && 0 <= i < |cands|
      ensures p < |cands[i]| && IsBit(cands[i][p])
    {
      assert cands[i] == s;
    }
  }

  /** Any number of oxygen rounds over copies of a bit string keeps every copy. */
  lemma {:induction false} NarrowKeepsCopies(cands: seq<string>, s: string, pos: nat, k: nat)
    requires AllEqual(cands, s) && pos + k <= |s| && IsBinary(s)
    ensures Narrow(Oxygen, cands, pos, k) == Ok(cands)
    decreases k
  {
    if k > 0 {
      NarrowKeepsCopies(cands, s, pos + 1, k - 1);
      OxygenRoundKeepsCopies(cands, s, pos);
      NarrowStep(Oxygen, cands, pos, k - 1, cands);
    }
  }

  /** On two copies of a row the oxygen filter examines every column and ends without
      a rating, both copies left, so `as_decimal` fails. */
  lemma OxygenFailsOnDuplicateRows(s: string)
    requires |s| > 0 && IsBinary(s)
    ensures RatingOf(Oxygen, [s, s]) == Ok(RatingState(None, [s, s], |s|))
    ensures RatingDecimal(Oxygen, [s, s]) == Err(NoRating)
  {
    var rows := [s, s];
    assert AllEqual(rows, s);
    OxygenFailsOnCopies(rows, s);
  }

  /** `OxygenFailsOnDuplicateRows` for any number of copies beyond one. */
  lemma OxygenFailsOnCopies(rows: seq<string>, s: string)
    requires AllEqual(rows, s) && |rows| >= 2 && |s| > 0 && IsBinary(s)
    ensures RatingOf(Oxygen, rows) == Ok(RatingState(None, rows, |s|))
    ensures RatingDecimal(Oxygen, rows) == Err(NoRating)
  {
    assert |rows[0]| == |s|;
    OxygenKeepsCopies(rows, s, 0, |s|);
  }

  /** On two copies of a row the CO2 filter discards both at column 0, and `as_decimal`
      reads 0. */
  lemma Co2DiscardsDuplicateRows(s: string)
    requires |s| > 0 && IsBinary(s)
    ensures RatingDecimal(Co2, [s, s]) == Ok(0)
  {
    assert UniformColumn([s, s], 0, s[0]);
    Co2EmptiesOnUnanimousColumn([s, s], 0, |s|, s[0]);
    assert RatingOf(Co2, [s, s]) == FilterFrom(Co2, [s, s], 0, |s|);
  }
}

=== FILE: results.dfy ===
/** Wrappers shared by the three solvers: an optional value and a value-or-error
    result. */
module Results {

  /** A value that may be missing, the model of Python's `None`. */
  datatype Option<+T> = None | Some(value: T)

  /** The outcome of an operation that either returns or raises. */
  datatype Result<+T, +E> = Ok(value: T) | Err(error: E)
}
